=== FILE: README.md ===
# ADmyBRAND Insights dashboard — a Dafny model of its data logic

ADmyBRAND Insights is a marketing-analytics dashboard written in
TypeScript/React. Most of its files are Python scripts that write the
TypeScript sources to disk as string templates. Almost all of the project is
presentation. This model covers the pure logic under that presentation, in
four parts.

- **Mock data** (`MockData`):
  - the generator of thirty days of per-campaign records, with the random
    draws passed in;
  - the roll-up into one row per campaign (Search, Social, Display, Email);
  - the header summary: totals, average order value and conversion rate.
- **Chart preparation** (`Charts`):
  - the reduce that groups records by date in order of first appearance;
  - the `slice(-14)` that keeps the last fourteen days;
  - the bar/pie projection and the cyclic pie-slice colour.
- **Campaign table** (`DataTable`):
  - a case-insensitive search, then inclusive revenue bounds;
  - a stable sort on the clicked column, ascending or descending;
  - ten-row pages with clamped Previous/Next buttons;
  - the header-click sort toggle, the clear-filters button, and the CSV
    export of the whole filtered view.
- **Utilities** (`Utils`): `convertToCSV` and `calculateGrowth`.

Shared building blocks:

- `Seqs`: JavaScript's `filter`, `slice` with negative indices, and `join`,
  plus `split`, which reads exported text back.
- `Text`: lower-casing, `includes`, string order, and integer rendering.
- `Sorting`: a stable sort by an abstract comparator relation.

Every operation is a pure function over immutable datatypes. React state
updates are functions from the old state to the new one. JavaScript numbers
are modelled as mathematical integers and reals. `Math.random()` results are
parameters in `[0, 1)`. Dates are opaque strings.

Three behaviours of the code that a reader may not expect, all kept by the model:

- The CSV writer wraps strings in quotes without doubling inner quotes.
  `Utils.CsvQuotesNotDoubled` and `Utils.CsvCommaAddsField` state what comes out.
- It takes its columns from the first row only (`Utils.CsvHeaderFromFirstRowOnly`).
- The two summary ratios divide without a zero guard. JavaScript then yields
  `NaN` or `Infinity`; `MockData.SummaryMetrics` gives `None` for that ratio.

The CSV line separator is a newline. In `script_3.py` the template text
`'\\n'` sits in an ordinary Python string, so the generated TypeScript has the
escape `\n`.

## Model

| member | source | states |
|---|---|---|
| `Seqs.Filter` | script_6.py:37-47 | `Array.prototype.filter`: every kept element passes the predicate, and the result is a sub-multiset of the input |
| `Seqs.FilterCounts` | script_6.py:37-47 | a passing element survives as many times as it occurs in the input; a failing one not at all |
| `Seqs.FilterMembership` | script_6.py:37-39 | an element survives a filter iff it was in the input and passes |
| `Seqs.FilterIsSubsequence` | script_6.py:37-47 | a filter result is a subsequence of its input, in the original order |
| `Seqs.JsSlice` | script_6.py:68-71 | `slice(start, end)` with JavaScript's clamping and negative indices: the result has as many elements as lie between the normalised start and end (none if the end is not past the start), and each is the input element at the normalised start plus its offset |
| `Seqs.LastSliceIsSuffix` | Charts.tsx:52 | `slice(-n)` has length `min(n, len)` and is a suffix of the input |
| `Seqs.Join` | script_3.py:204-213 | `join` of a single part is that part, and of two or more parts holds the separator; `Seqs.SplitJoin` states that splitting gives the parts back |
| `Seqs.SplitJoin` | script_3.py:213 | splitting a separator-free join on its separator gives back the parts |
| `Text.ToLower` | script_6.py:38 | lower-casing keeps the length, leaves no upper-case letter, and maps each upper-case letter to its lower-case partner |
| `Text.ToLowerIdempotent` | script_6.py:38 | lower-casing twice is lower-casing once |
| `Text.Contains` | script_6.py:38 | `includes` succeeds only for a needle no longer than the haystack; `Text.ContainsIffOccurs` states that it succeeds exactly when the needle occurs at some position |
| `Text.ContainsIffOccurs` | script_6.py:38 | `includes` succeeds exactly when the needle occurs at some position of the haystack |
| `Text.StrLessTransitive` | script_6.py:56-57 | the string order used for `localeCompare` is transitive |
| `Text.StrLessTotal` | script_6.py:56-57 | any two different strings are ordered one way or the other |
| `Text.NatText` | script_3.py:208 | a non-negative number is written as at least one decimal digit, with a leading zero only for 0; `Text.NatTextRoundTrip` states that the text reads back as the number |
| `Text.IntText` | script_3.py:208 | a number is written as at least one character: decimal digits when it is not negative, otherwise a minus sign followed by digits |
| `Text.NatTextRoundTrip` | script_3.py:208 | a number's decimal text reads back as the same number |
| `Sorting.SortBy` | script_6.py:50-63 | the sort returns a permutation of its input |
| `Sorting.SortBySorted` | script_6.py:50-63 | for a consistent comparator, no element is placed after one the comparator puts after it |
| `Sorting.SortByStable` | script_6.py:50-63 | elements that tie keep their relative order, as ECMAScript's stable `sort` guarantees |
| `Sorting.SortByOfSorted` | script_6.py:50-63 | sorting a sequence already in order leaves it unchanged |
| `MockData.DrawUsers` | admybrand-insights-complete/admybrand-insights-fixed/data/mockData.ts:30 | a record has from 200 to 699 users |
| `MockData.DrawConversions` | admybrand-insights-complete/admybrand-insights-fixed/data/mockData.ts:31-32 | conversions are at least 10 and fewer than a fifth of the users |
| `MockData.DrawRevenue` | admybrand-insights-complete/admybrand-insights-fixed/data/mockData.ts:33-34 | revenue is between 25 and 75 per conversion |
| `MockData.MakeRecord` | admybrand-insights-complete/admybrand-insights-fixed/data/mockData.ts:30-42 | one step of the inner loop: the record carries the given date and campaign, has 200 to 699 users, at least 10 conversions and fewer than a fifth of the users, and 25 to under 75 revenue per conversion |
| `MockData.GenerateMockData` | admybrand-insights-complete/admybrand-insights-fixed/data/mockData.ts:19-47 | 120 records; record `k` is the record built from day `k / 4`, campaign `k % 4` of Search, Social, Display, Email, and the `k`-th draw; every record is in the generated ranges |
| `MockData.GeneratedIsPlausible` | admybrand-insights-complete/admybrand-insights-fixed/data/mockData.ts:30-34 | a generated record has no negative figure and no more conversions than users |
| `MockData.Total` | admybrand-insights-complete/admybrand-insights-fixed/data/mockData.ts:56-58 | the `reduce` sum is 0 over no records and the record's own figure over one; `MockData.TotalAppend` extends it to concatenations |
| `MockData.TotalAppend` | admybrand-insights-complete/admybrand-insights-fixed/data/mockData.ts:56-58 | the `reduce` sum over a concatenation is the sum of the two sums |
| `MockData.CostBounds` | admybrand-insights-complete/admybrand-insights-fixed/data/mockData.ts:66 | `floor(revenue * f)` with `f` in [0.2, 0.5), for a non-negative revenue, is not negative, at most half of the revenue, and at least a fifth of it rounded down (revenue < 5·cost + 5) |
| `MockData.CampaignMetrics` | admybrand-insights-complete/admybrand-insights-fixed/data/mockData.ts:55 | every kept record names the campaign, and no record is added or duplicated; `Seqs.FilterMembership` and `Seqs.FilterCounts` give the converse |
| `MockData.Aggregate` | admybrand-insights-complete/admybrand-insights-fixed/data/mockData.ts:54-67 | a campaign row carries the campaign's name, a CTR in [2, 7), and, for a non-negative revenue, a cost of at most half of the revenue and at least a fifth of it rounded down (revenue < 5·cost + 5) |
| `MockData.CampaignDataOf` | script_3.py:131-147 | exactly four rows, in the order Search, Social, Display, Email; each row carries its campaign's sums, a CTR in [2, 7), and, for a non-negative revenue, a cost of at most half of the revenue and at least a fifth of it rounded down |
| `MockData.CampaignsPartitionTotals` | admybrand-insights-complete/admybrand-insights-fixed/data/mockData.ts:52-58 | when every record names one of the four campaigns, the four per-campaign sums add up to the overall sum |
| `MockData.CampaignSumAtMostTotal` | admybrand-insights-complete/admybrand-insights-fixed/data/mockData.ts:52-58 | for records with no negative figure, the four per-campaign sums together never exceed the overall sum, whatever campaigns the records name; a record of another campaign is in no row |
| `MockData.CampaignRowsAddUpToTotals` | admybrand-insights-complete/admybrand-insights-fixed/data/mockData.ts:52-74 | the campaign rows' revenue, users and conversions add up to the summary totals |
| `MockData.Ratio` | admybrand-insights-complete/admybrand-insights-fixed/data/mockData.ts:75 | the quotient is undefined exactly when the divisor is zero (JavaScript's `NaN` or `Infinity`); otherwise times the divisor it gives the dividend |
| `MockData.Percentage` | admybrand-insights-complete/admybrand-insights-fixed/data/mockData.ts:76 | the percentage is undefined exactly when the divisor is zero; otherwise times the divisor it gives 100 times the dividend |
| `MockData.SummaryMetrics` | admybrand-insights-complete/admybrand-insights-fixed/data/mockData.ts:71-77 | the totals are the `reduce` sums; the average order value is undefined exactly when there are no conversions, and otherwise times conversions gives the revenue; the conversion rate is undefined exactly when there are no users, and otherwise times users gives 100 times the conversions |
| `MockData.SummaryRatiosInRange` | admybrand-insights-complete/admybrand-insights-fixed/data/mockData.ts:75-76 | if no record is negative or converts more users than it has: wherever there are users, the conversion rate is in [0, 100], and 0 when nobody converted; wherever there are conversions, the average order value is not negative; without users there are no conversions either |
| `MockData.GeneratedTotals` | admybrand-insights-complete/admybrand-insights-fixed/data/mockData.ts:72-74 | over `n` generated records: total users lie between `200n` and `699n`; total conversions are at least `10n` and, when `n > 0`, strictly fewer than a fifth of the total users; total revenue is at least 25 and, when `n > 0`, under 75 per conversion |
| `MockData.GeneratedSummaryRanges` | admybrand-insights-complete/admybrand-insights-fixed/data/mockData.ts:75-76 | on generated data both ratios are defined, the average order value is in [25, 75] and the conversion rate in [0, 20] |
| `Charts.FindDay` | Charts.tsx:38 | `find` returns the first entry with the date, or nothing if no entry has it |
| `Charts.Merge` | Charts.tsx:39-42 | updating a known day adds the record's figure to each measure and keeps the date |
| `Charts.NewDay` | Charts.tsx:44-49 | the entry pushed for a new day carries the record's date and, for each measure, the record's own figure |
| `Charts.AddRecord` | Charts.tsx:38-50 | the reducer step keeps every existing entry's date in place and adds at most one entry; it adds one exactly when no entry has the record's date, and the new last entry opens that day with the record's figures |
| `Charts.GroupByDate` | Charts.tsx:37-51 | the roll-up has no more entries than there are records; `Charts.GroupByDateDates` and `Charts.GroupByDateSums` say which entries and sums |
| `Charts.GroupByDateDates` | Charts.tsx:37-51 | the roll-up has exactly one entry per distinct record date, in order of first appearance |
| `Charts.GroupByDateSums` | Charts.tsx:38-49 | each entry's revenue, users and conversions are the sums over exactly the records of its date |
| `Charts.GroupByDatePreservesTotals` | Charts.tsx:37-51 | the grand totals over the entries equal the totals over the records |
| `Charts.DailyDataIsLastDays` | Charts.tsx:52 | the chart series has `min(14, #days)` entries and is the tail of the roll-up |
| `Charts.DailyData` | Charts.tsx:37-52 | the time-series charts get at most fourteen points and never more than there are records; `Charts.DailyDataIsLastDays` states that they are the last days of the roll-up |
| `Charts.CampaignChartData` | Charts.tsx:55-60 | one point per campaign row, in order, with the name and three sums copied |
| `Charts.SliceColor` | Charts.tsx:26 | every slice colour is one of the five palette colours |
| `Charts.SliceColorCycles` | Charts.tsx:180-181 | the colour repeats every five slices, and the first five slices take the palette in order |
| `Utils.CalculateGrowth` | script_3.py:188-191 | growth over a zero base is 0; otherwise applying the growth percentage to the base gives the current value; for a positive base, growth is positive iff the value rose and zero iff it stayed |
| `Utils.Keys` | script_3.py:202 | the columns are the keys of the first row, one per entry, in the row's entry order |
| `Utils.Lookup` | script_3.py:207 | `row[header]` finds an entry with that key, or `undefined` when the row has none |
| `Utils.Cell` | script_3.py:206-208 | a missing value gives an empty field, a number its text, and a string the string between two double quotes, unescaped |
| `Utils.DataLine` | script_3.py:205-210 | when no cell holds a comma, the line splits on commas back into one field per header, each the cell of that header's value in the row |
| `Utils.ConvertToCsv` | script_3.py:199-201 | the output is empty exactly when there are no rows |
| `Utils.CsvLines` | script_3.py:202-213 | for newline-free values, splitting the output on newlines gives `n + 1` lines: the first row's keys joined by commas, then one line per row |
| `Utils.CsvFields` | script_3.py:204-210 | for comma- and newline-free values, the header splits back into the keys, and each data line has as many fields as there are headers, each the rendered value of that column |
| `Utils.CsvHeaderFromFirstRowOnly` | script_3.py:202-207 | for comma- and newline-free data, a key the first row lacks is never a column, every row's line has one field per column of the first row, and a column a row lacks gets an empty field |
| `Utils.CsvQuotesNotDoubled` | script_3.py:208 | for comma- and newline-free data, a string value's field is the string between two quotes, unchanged, so it holds exactly two quotes more than the string |
| `Utils.OneColumnCsv` | script_3.py:199-213 | a one-row, one-column export of a string is the key, a newline, and the string between two quotes |
| `Utils.CsvCommaAddsField` | script_3.py:208 | in a one-column export, a string value holding one comma reads back as two fields under one header |
| `DataTable.InitialViewShowsAllRows` | script_6.py:25-31 | on first render (empty search, no bounds, revenue descending, page 1) the filters keep every row, the view is a reordering of the data whose revenue never rises, and the page shows its first ten rows |
| `DataTable.MatchesSearch` | script_6.py:38 | a row matches exactly when its lower-cased name contains the lower-cased term at some position |
| `DataTable.SearchFilter` | script_6.py:37-39 | every kept row matches the search, and no row is added or duplicated; `DataTable.SearchKeepsExactlyMatches` gives the converse |
| `DataTable.SearchKeepsExactlyMatches` | script_6.py:37-39 | a row survives the search iff its lower-cased name contains the lower-cased term at some position |
| `DataTable.EmptySearchKeepsAll` | script_6.py:37-39 | an empty search term keeps every row |
| `DataTable.RevenueFilter` | script_6.py:42-47 | every kept row meets each bound that is set, and no row is added or duplicated; `DataTable.RevenueFilterMembership` and `DataTable.RevenueFilterCounts` give the converse |
| `DataTable.RevenueFilterMembership` | script_6.py:42-47 | a row survives the revenue filters iff it meets each bound that is set, both ends inclusive |
| `DataTable.CrossedBoundsMatchNothing` | script_6.py:42-47 | a minimum above the maximum leaves no row |
| `DataTable.FilteredRowsAreMatchingSubsequence` | script_6.py:37-47 | the filtered rows are a subsequence of the data, in data order, and are exactly the rows that pass the search and the bounds |
| `DataTable.RevenueFilterCounts` | script_6.py:42-47 | the revenue filters keep every copy of a row within the set bounds and no copy of any other |
| `DataTable.FilteredRowsCounts` | script_6.py:37-47 | the filters keep every copy of a passing row and no copy of any other |
| `DataTable.LocaleCompare` | script_6.py:56-57 | negative, zero or positive exactly when the first string sorts before, equals, or sorts after the second |
| `DataTable.Comparator` | script_6.py:50-63 | zero exactly when the two rows hold the same value in the sort column; negative exactly when, ascending, the first name sorts before the second or the first number is smaller, and the reverse when descending |
| `DataTable.BeforeTiesAreEqualKeys` | script_6.py:50-63 | two rows the comparator cannot order are exactly the rows with equal values in the sort column |
| `DataTable.ComparatorIsStrictWeakOrder` | script_6.py:50-63 | on every column and direction the comparator is a consistent ordering |
| `DataTable.SortRows` | script_6.py:50-63 | the sorted rows are a permutation of the filtered rows, in comparator order; `DataTable.SortRowsStable` adds that ties keep their order |
| `DataTable.SortRowsStable` | script_6.py:50-63 | rows with the same value in the sort column keep their filtered order |
| `DataTable.FilteredAndSortedData` | script_6.py:36-64 | the view is a permutation of the filtered rows, sorted on the chosen column and direction |
| `DataTable.QueryIsStableSortOfMatches` | script_6.py:36-64 | the view is a permutation of exactly the passing rows, sorted on the chosen column and direction, with ties in data order |
| `DataTable.QueryKeepsPassingCopies` | script_6.py:36-64 | the view holds each passing row as often as the data does, and no other row |
| `DataTable.QueryIdempotent` | script_6.py:36-64 | running the query again on its own result changes nothing |
| `DataTable.TotalPages` | script_6.py:67 | the page count is the ceiling of rows over ten: enough pages for all rows and no empty last page |
| `DataTable.PaginatedData` | script_6.py:68-71 | a page has at most ten rows; a page past the last is empty; a page in range is the rows from `(p-1)*10` to `min(p*10, n)` |
| `DataTable.PagesCoverAllRows` | script_6.py:67-71 | pages 1 to the last, concatenated, are exactly the view |
| `DataTable.RowIsOnItsPage` | script_6.py:67-71 | row `i` of the view is row `i % 10` of page `i / 10 + 1` |
| `DataTable.PagerShownIffMoreThanOnePage` | script_6.py:251 | the pager appears exactly when there are more than ten rows |
| `DataTable.ShowingLineMatchesPage` | script_6.py:254-256 | on a page in range, the "Showing" numbers are the one-based positions of the first and last rows on the page |
| `DataTable.HandleSort` | script_6.py:73-80 | a header click selects its column; the current column flips direction and a new column starts descending; nothing else changes |
| `DataTable.HandleSortTwiceRestores` | script_6.py:73-80 | two clicks on the current column restore the state |
| `DataTable.HandleSortNewFieldTwiceIsAscending` | script_6.py:73-80 | two clicks on a new column leave it sorted ascending |
| `DataTable.SetSearchTerm` | script_6.py:148 | typing a search term changes only the term |
| `DataTable.SetRevenueBounds` | script_6.py:161-173 | typing in the revenue boxes changes only the bounds |
| `DataTable.StalePageShowsNothing` | script_6.py:68-71 | typing a search term keeps the current page, so a page beyond the narrower view's last shows no rows |
| `DataTable.StaleSmallViewHasNoPager` | script_6.py:251 | if the narrower view fits on one page while the user is on a later one, the pager is not drawn and the table is empty, so no button leads back |
| `DataTable.ClearFilters` | script_6.py:86-91 | clearing empties the search and both bounds and returns to page 1, keeping the sort |
| `DataTable.ClearFiltersKeepsAllRows` | script_6.py:86-91 | after clearing, the filter keeps every row |
| `DataTable.PreviousPage` | script_6.py:260 | Previous steps back one page, and from page 1 or below lands on page 1 |
| `DataTable.NextPage` | script_6.py:270 | Next steps forward one page, and from the last page or beyond lands on the last page |
| `DataTable.PagerStaysInRange` | script_6.py:260-271 | from a page in range both buttons stay in range, and each undoes the other away from the ends |
| `DataTable.CsvRow` | admybrand-insights-complete/admybrand-insights-fixed/data/mockData.ts:60-67 | an exported row has six entries: the name as a string, so it is quoted, and the five figures as numbers, so they are not; `DataTable.CsvRowKeys` gives the column names and order |
| `DataTable.CsvRowKeys` | admybrand-insights-complete/admybrand-insights-fixed/data/mockData.ts:60-67 | an exported row has the six columns in declaration order |
| `DataTable.ExportCsv` | script_6.py:82-84 | the export is empty exactly when the whole filtered view, not just the current page, is empty |
| `DataTable.ExportStartsWithHeader` | script_6.py:82-84 | the export is empty iff no row passes; otherwise its first line is the six column names, which split back into those names |
| `DataTable.SearchingSeaFindsSearch` | script_6.py:37-71 | on the four campaign rows, searching "sea" finds only Search, on a single page |

## Left out

- Rendering is not modelled: JSX, Tailwind classes, Framer Motion animation, and the Recharts line, area, bar and pie charts.
- Components with only UI state or side effects are not modelled: the theme toggle (`localStorage`, DOM), the sidebar, the dashboard's timers, the loading skeleton, and the metric-card colour choice.
- The filter panel's show/hide flag and the chart-type switch are not modelled; they only change what is drawn.
- `downloadCSV` is browser I/O (Blob, object URL, `document`); the model stops at the CSV text.
- `formatCurrency`, `formatNumber` and `formatPercentage` (`Intl.NumberFormat`, `toFixed`) are not modelled. They only format cells for display.
- `Math.random()` results are parameters in `[0, 1)`; `new Date()` arithmetic and `toISOString` are replaced by thirty given date strings.
- JavaScript numbers are IEEE doubles; the model uses exact integers and reals, so rounding in the ratios and in `Math.floor` of products is not modelled.
- DataTable.CsvRow: how the exported CTR is written is a parameter. JavaScript's shortest round-trip rendering of a double is not modelled.
- Utils.Keys: a row lists its keys in insertion order, and `Utils.Lookup` returns the first entry for a key. A JavaScript object lists integer-like keys first, in numeric order, and holds each key once, with its last value. The exported rows have six distinct, non-numeric keys, so the two agree on them; rows with repeated or integer-like keys are not modelled.
- Text.StrLess: `localeCompare` uses the host's collation; the model compares character codes lexicographically. Collation tailoring (for example, case-insensitive or accent-aware order) is not modelled.
- Text.ToLower: `toLowerCase` is modelled for ASCII letters only. Unicode case mapping is not modelled.
- TableState: a revenue box holds the integer `parseInt` reads from it, or nothing when empty. Non-numeric text, which `parseInt` turns into `NaN` and which then keeps no row, is not modelled.
- The other scripts write configuration, documentation and layout files, or zip the project. They are not part of this model, and neither are the page component, the dashboard, the sidebar, the theme toggle, the metric card or the loading skeleton.

=== FILE: charts.dfy ===
/** The data preparation of the charts panel: records rolled up by day for
    the line and area charts, campaign rows projected for the bar and pie
    charts, and the cyclic choice of a pie-slice colour. Rendering is not
    modelled. */
module Charts {
  import opened Wrappers
  import opened Seqs
  import opened MockData

  /** One day's totals across all campaigns. */
  datatype DailyPoint = DailyPoint(date: string, revenue: int, users: int, conversions: int)

  function PointValue(p: DailyPoint, m: Measure): int {
    match m
    case Revenue => p.revenue
    case Users => p.users
    case Conversions => p.conversions
  }

  /** `acc.find(d => d.date === date)`, as the position of the first match. */
  function FindDay(acc: seq<DailyPoint>, date: string): (r: Option<nat>)
    ensures r.Some? ==> r.value < |acc| && acc[r.value].date == date
    ensures r.Some? ==> forall i :: 0 <= i < r.value ==> acc[i].date != date
    ensures r.None? ==> forall i :: 0 <= i < |acc| ==> acc[i].date != date
    decreases |acc|
  {
    if acc == [] then None
    else if acc[0].date == date then Some(0)
    else match FindDay(acc[1..], date)
      case None => None
      case Some(i) => Some(i + 1)
  }

  /** The reducer: add the record to the existing entry for its day, or
      append a new entry for a day not seen before. */
  function AddRecord(acc: seq<DailyPoint>, item: MetricData): (r: seq<DailyPoint>)
    ensures |acc| <= |r| <= |acc| + 1
    ensures forall i :: 0 <= i < |acc| ==> r[i].date == acc[i].date
    ensures |r| == |acc| + 1 <==> forall i :: 0 <= i < |acc| ==> acc[i].date != item.date
    ensures |r| == |acc| + 1 ==> r[|acc|] == NewDay(item)
  {
    match FindDay(acc, item.date)
    case Some(i) => acc[i := Merge(acc[i], item)]
    case None => acc + [NewDay(item)]
  }

  /** An entry with the record's figures added to it. */
  function Merge(p: DailyPoint, item: MetricData): (q: DailyPoint)
    ensures q.date == p.date
    ensures forall m :: PointValue(q, m) == PointValue(p, m) + Value(item, m)
  {
    DailyPoint(p.date, p.revenue + item.revenue, p.users + item.users, p.conversions + item.conversions)
  }

  /** The entry that opens a new day with the record's figures. */
  function NewDay(item: MetricData): (q: DailyPoint)
    ensures q.date == item.date
    ensures forall m :: PointValue(q, m) == Value(item, m)
  {
    DailyPoint(item.date, item.revenue, item.users, item.conversions)
  }

  /** `data.reduce(AddRecord, [])`: the daily roll-up before it is cut. */
  function GroupByDate(data: seq<MetricData>): (days: seq<DailyPoint>)
    ensures |days| <= |data|
    decreases |data|
  {
    if data == [] then []
    else AddRecord(GroupByDate(data[..|data| - 1]), data[|data| - 1])
  }

  /** How many days the time-series charts show. */
  const ChartDays: nat := 14

  /** `dailyData`: the roll-up followed by `.slice(-14)`. */
  function DailyData(data: seq<MetricData>): (shown: seq<DailyPoint>)
    ensures |shown| <= ChartDays
    ensures |shown| <= |data|
  {
    var days := GroupByDate(data);
    JsSlice(days, -(ChartDays as int), |days|)
  }

  /** The dates of the records, in record order. */
  function DatesOf(data: seq<MetricData>): (r: seq<string>)
    ensures |r| == |data|
    ensures forall k :: 0 <= k < |data| ==> r[k] == data[k].date
  {
    seq(|data|, k requires 0 <= k < |data| => data[k].date)
  }

  /** The dates of the roll-up entries, in entry order. */
  function DayDates(days: seq<DailyPoint>): (r: seq<string>)
    ensures |r| == |days|
    ensures forall i :: 0 <= i < |days| ==> r[i] == days[i].date
  {
    seq(|days|, i requires 0 <= i < |days| => days[i].date)
  }

  /** The position of the first occurrence of `d` in `s`, or `|s|` when it
      does not occur. */
  function IndexOf(s: seq<string>, d: string): (r: nat)
    ensures r <= |s|
    ensures r < |s| ==> s[r] == d
    ensures forall k :: 0 <= k < r ==> s[k] != d
    decreases |s|
  {
    if s == [] then 0 else if s[0] == d then 0 else 1 + IndexOf(s[1..], d)
  }

  lemma IndexOfSnoc(s: seq<string>, x: string, d: string)
    ensures d in s ==> IndexOf(s + [x], d) == IndexOf(s, d)
    ensures d !in s && x == d ==> IndexOf(s + [x], d) == |s|
  {
    var t := s + [x];
    if d in s {
      assert t[IndexOf(s, d)] == d;
    } else if x == d {
      assert t[|s|] == d;
    }
  }

  /** `ds` lists each value of `dates` exactly once, in the order in which
      the values first appear in `dates`. */
  predicate FirstAppearanceOrder(dates: seq<string>, ds: seq<string>) {
    && Distinct(ds)
    && (forall i :: 0 <= i < |ds| ==> ds[i] in dates)
    && Covers(ds, dates)
    && (forall i, j :: 0 <= i < j < |ds| ==> IndexOf(dates, ds[i]) < IndexOf(dates, ds[j]))
  }

  predicate Distinct(ds: seq<string>) {
    forall i, j :: 0 <= i < j < |ds| ==> ds[i] != ds[j]
  }

  /** Every value of `dates` is listed in `ds`. */
  predicate Covers(ds: seq<string>, dates: seq<string>) {
    forall k :: 0 <= k < |dates| ==> dates[k] in ds
  }

  /** One more record keeps the order: a known date changes nothing, a new
      date goes last. */
  lemma FirstAppearanceSnoc(dates: seq<string>, ds: seq<string>, x: string)
    requires FirstAppearanceOrder(dates, ds)
    ensures x in ds ==> FirstAppearanceOrder(dates + [x], ds)
    ensures x !in ds ==> FirstAppearanceOrder(dates + [x], ds + [x])
  {
    forall i | 0 <= i < |ds|
      ensures IndexOf(dates + [x], ds[i]) == IndexOf(dates, ds[i]) < |dates|
    {
      IndexOfSnoc(dates, x, ds[i]);
    }
    if x !in ds {
      IndexOfSnoc(dates, x, x);
      var ds' := ds + [x];
      assert forall i :: 0 <= i < |ds| ==> ds'[i] == ds[i];
    }
  }

  /** What the reducer does to the list of dates. */
  lemma AddRecordDates(acc: seq<DailyPoint>, x: MetricData)
    ensures x.date in DayDates(acc) ==> DayDates(AddRecord(acc, x)) == DayDates(acc)
    ensures x.date !in DayDates(acc) ==> DayDates(AddRecord(acc, x)) == DayDates(acc) + [x.date]
  {
    match FindDay(acc, x.date)
    case Some(n) =>
    case None =>
      assert x.date !in DayDates(acc);
  }

  /** The roll-up has one entry per distinct date, and its entries follow
      the order in which the dates first appear among the records. */
  lemma {:induction false} GroupByDateDates(data: seq<MetricData>)
    ensures FirstAppearanceOrder(DatesOf(data), DayDates(GroupByDate(data)))
    decreases |data|
  {
    if data != [] {
      var front := data[..|data| - 1];
      var x := data[|data| - 1];
      assert DatesOf(data) == DatesOf(front) + [x.date];
      GroupByDateDates(front);
      AddRecordDates(GroupByDate(front), x);
      FirstAppearanceSnoc(DatesOf(front), DayDates(GroupByDate(front)), x.date);
    }
  }

  /** The records of one day. */
  function OnDate(data: seq<MetricData>, date: string): seq<MetricData> {
    Filter(data, (d: MetricData) => d.date == date)
  }

  lemma OnDateSnoc(front: seq<MetricData>, x: MetricData, date: string, m: Measure)
    ensures Total(OnDate(front + [x], date), m)
         == Total(OnDate(front, date), m) + (if x.date == date then Value(x, m) else 0)
  {
    FilteredTotalSnoc(front, x, (d: MetricData) => d.date == date, m);
  }

  lemma OnDateAbsent(data: seq<MetricData>, date: string, m: Measure)
    requires date !in DatesOf(data)
    ensures Total(OnDate(data, date), m) == 0
  {
    forall k | 0 <= k < |data|
      ensures data[k].date != date
    {
      assert DatesOf(data)[k] == data[k].date;
    }
    FilterDropsAll(data, (d: MetricData) => d.date == date);
  }

  /** Every entry holds the sums over the records of its day. */
  predicate SumsByDay(data: seq<MetricData>, days: seq<DailyPoint>, m: Measure) {
    forall i :: 0 <= i < |days| ==> PointValue(days[i], m) == Total(OnDate(data, days[i].date), m)
  }

  /** Adding to an existing day keeps `SumsByDay`. */
  lemma AddToKnownDaySums(front: seq<MetricData>, acc: seq<DailyPoint>, x: MetricData, m: Measure, n: nat)
    requires SumsByDay(front, acc, m)
    requires n < |acc| && acc[n].date == x.date
    requires forall i :: 0 <= i < |acc| && i != n ==> acc[i].date != x.date
    ensures var p := Merge(acc[n], x);
      SumsByDay(front + [x], acc[n := p], m)
  {
    var p := Merge(acc[n], x);
    var days := acc[n := p];
    forall i | 0 <= i < |days|
      ensures PointValue(days[i], m) == Total(OnDate(front + [x], days[i].date), m)
    {
      OnDateSnoc(front, x, days[i].date, m);
    }
  }

  /** Appending a day that no earlier record had keeps `SumsByDay`. */
  lemma AddNewDaySums(front: seq<MetricData>, acc: seq<DailyPoint>, x: MetricData, m: Measure)
    requires SumsByDay(front, acc, m)
    requires x.date !in DatesOf(front)
    requires forall i :: 0 <= i < |acc| ==> acc[i].date != x.date
    ensures SumsByDay(front + [x], acc + [NewDay(x)], m)
  {
    var days := acc + [NewDay(x)];
    forall i | 0 <= i < |days|
      ensures PointValue(days[i], m) == Total(OnDate(front + [x], days[i].date), m)
    {
      OnDateSnoc(front, x, days[i].date, m);
      if i == |acc| {
        OnDateAbsent(front, x.date, m);
      }
    }
  }

  /** With distinct dates, entry `n` is the only one for its day. */
  lemma OnlyEntryForDay(acc: seq<DailyPoint>, n: nat)
    requires Distinct(DayDates(acc)) && n < |acc|
    ensures forall i :: 0 <= i < |acc| && i != n ==> acc[i].date != acc[n].date
  {
    forall i | 0 <= i < |acc| && i != n
      ensures acc[i].date != acc[n].date
    {
      assert DayDates(acc)[i] != DayDates(acc)[n];
    }
  }

  /** The record's day is already in the roll-up: the update keeps `SumsByDay`. */
  lemma AddKnownRecordSums(front: seq<MetricData>, acc: seq<DailyPoint>, x: MetricData, m: Measure, n: nat)
    requires SumsByDay(front, acc, m)
    requires Distinct(DayDates(acc))
    requires FindDay(acc, x.date) == Some(n)
    ensures SumsByDay(front + [x], AddRecord(acc, x), m)
  {
    OnlyEntryForDay(acc, n);
    AddToKnownDaySums(front, acc, x, m, n);
    var p := Merge(acc[n], x);
    assert AddRecord(acc, x) == acc[n := p];
  }

  /** The record's day is new: the appended entry keeps `SumsByDay`. */
  lemma AddUnknownRecordSums(front: seq<MetricData>, acc: seq<DailyPoint>, x: MetricData, m: Measure)
    requires SumsByDay(front, acc, m)
    requires Covers(DayDates(acc), DatesOf(front))
    requires FindDay(acc, x.date).None?
    ensures SumsByDay(front + [x], AddRecord(acc, x), m)
  {
    assert x.date !in DayDates(acc);
    assert x.date !in DatesOf(front);
    AddNewDaySums(front, acc, x, m);
    assert AddRecord(acc, x) == acc + [NewDay(x)];
  }

  /** The reducer keeps `SumsByDay` when one record is appended. */
  lemma AddRecordSums(front: seq<MetricData>, acc: seq<DailyPoint>, x: MetricData, m: Measure)
    requires SumsByDay(front, acc, m)
    requires Distinct(DayDates(acc))
    requires Covers(DayDates(acc), DatesOf(front))
    ensures SumsByDay(front + [x], AddRecord(acc, x), m)
  {
    match FindDay(acc, x.date)
    case Some(n) => AddKnownRecordSums(front, acc, x, m, n);
    case None => AddUnknownRecordSums(front, acc, x, m);
  }

  /** Each entry holds the sums of revenue, users and conversions over
      exactly the records of its day. */
  lemma {:induction false} GroupByDateSums(data: seq<MetricData>, m: Measure)
    ensures SumsByDay(data, GroupByDate(data), m)
    decreases |data|
  {
    if data != [] {
      var front := data[..|data| - 1];
      var x := data[|data| - 1];
      assert data == front + [x];
      GroupByDateSums(front, m);
      GroupByDateDates(front);
      AddRecordSums(front, GroupByDate(front), x, m);
    }
  }

  /** The sum of one measure over the roll-up entries. */
  function DayTotal(days: seq<DailyPoint>, m: Measure): int
    decreases |days|
  {
    if days == [] then 0 else DayTotal(days[..|days| - 1], m) + PointValue(days[|days| - 1], m)
  }

  lemma {:induction false} DayTotalUpdate(days: seq<DailyPoint>, i: nat, p: DailyPoint, m: Measure)
    requires i < |days|
    ensures DayTotal(days[i := p], m) == DayTotal(days, m) - PointValue(days[i], m) + PointValue(p, m)
    decreases |days|
  {
    var front := days[..|days| - 1];
    if i < |days| - 1 {
      assert days[i := p][..|days| - 1] == front[i := p];
      DayTotalUpdate(front, i, p, m);
    } else {
      assert days[i := p][..|days| - 1] == front;
    }
  }

  /** The reducer adds the record's value to the grand total. */
  lemma AddRecordTotal(acc: seq<DailyPoint>, x: MetricData, m: Measure)
    ensures DayTotal(AddRecord(acc, x), m) == DayTotal(acc, m) + Value(x, m)
  {
    match FindDay(acc, x.date)
    case Some(n) =>
      var p := Merge(acc[n], x);
      DayTotalUpdate(acc, n, p, m);
    case None =>
      var p := NewDay(x);
      assert (acc + [p])[..|acc|] == acc;
  }

  /** Rolling up by day neither loses nor double-counts anything: the
      grand totals over the entries equal those over the records. */
  lemma {:induction false} GroupByDatePreservesTotals(data: seq<MetricData>, m: Measure)
    ensures DayTotal(GroupByDate(data), m) == Total(data, m)
    decreases |data|
  {
    if data != [] {
      var front := data[..|data| - 1];
      GroupByDatePreservesTotals(front, m);
      AddRecordTotal(GroupByDate(front), data[|data| - 1], m);
    }
  }

  /** The charts show the last fourteen days of the roll-up, or all of it
      when there are fewer. */
  lemma DailyDataIsLastDays(data: seq<MetricData>)
    ensures var days := GroupByDate(data);
      var shown := DailyData(data);
      && |shown| == (if |days| < ChartDays then |days| else ChartDays)
      && shown == days[|days| - |shown|..]
  {
    LastSliceIsSuffix(GroupByDate(data), ChartDays);
  }

  /** One bar or pie slice per campaign row. */
  datatype ChartPoint = ChartPoint(name: string, revenue: int, users: int, conversions: int)

  /** `campaignChartData`: each row renamed and cut to its three sums. */
  function CampaignChartData(rows: seq<CampaignData>): (points: seq<ChartPoint>)
    ensures |points| == |rows|
    ensures forall i :: 0 <= i < |rows| ==>
      && points[i].name == rows[i].campaign
      && points[i].revenue == rows[i].revenue
      && points[i].users == rows[i].users
      && points[i].conversions == rows[i].conversions
  {
    seq(|rows|, i requires 0 <= i < |rows| =>
      ChartPoint(rows[i].campaign, rows[i].revenue, rows[i].users, rows[i].conversions))
  }

  /** The pie-slice palette. */
  const Colors: seq<string> := ["#3B82F6", "#10B981", "#F59E0B", "#EF4444", "#8B5CF6"]

  /** `COLORS[index % COLORS.length]`. */
  function SliceColor(index: nat): (c: string)
    ensures c in Colors
  {
    Colors[index % |Colors|]
  }

  /** The palette repeats every five slices. */
  lemma SliceColorCycles(index: nat)
    ensures SliceColor(index + |Colors|) == SliceColor(index)
    ensures index < |Colors| ==> SliceColor(index) == Colors[index]
  {
  }
}

=== FILE: data_table.dfy ===
/** The campaign table: search and revenue filters, a stable sort on the
    chosen column, fixed-size pages, the header-click sort toggle, the
    pager buttons and the CSV export of the filtered view. React state is
    modelled as an immutable `TableState` and each handler as a function
    from the old state to the new one. */
module DataTable {
  import opened Wrappers
  import opened Seqs
  import opened Text
  import Sorting
  import MockData
  import Utils

  type Row = MockData.CampaignData

  /** `keyof CampaignData`: the columns the table can sort by. */
  datatype SortField = Campaign | Revenue | Users | Conversions | Ctr | Cost

  datatype SortDirection = Asc | Desc

  /** The component's state. An empty revenue box is `None`; a filled one
      holds the integer `parseInt` reads from it. */
  datatype TableState = TableState(
    searchTerm: string,
    sortField: SortField,
    sortDirection: SortDirection,
    currentPage: int,
    minRevenue: Option<int>,
    maxRevenue: Option<int>)

  /** The state on first render: no filter, revenue descending, page 1. */
  const InitialState: TableState := TableState("", Revenue, Desc, 1, None, None)

  const ItemsPerPage: nat := 10

  // ---------------------------------------------------------------- filters

  /** `item.campaign.toLowerCase().includes(searchTerm.toLowerCase())`. */
  predicate MatchesSearch(row: Row, term: string): (b: bool)
    ensures b <==> exists i :: OccursAt(ToLower(row.campaign), ToLower(term), i)
  {
    ContainsIffOccurs(ToLower(row.campaign), ToLower(term));
    Contains(ToLower(row.campaign), ToLower(term))
  }

  /** The search filter: the matching rows, in data order. */
  function SearchFilter(data: seq<Row>, term: string): (r: seq<Row>)
    ensures forall i :: 0 <= i < |r| ==> MatchesSearch(r[i], term)
    ensures multiset(r) <= multiset(data)
  {
    Filter(data, (row: Row) => MatchesSearch(row, term))
  }

  /** A row is kept by the search exactly when its lower-cased name holds
      the lower-cased term at some position. */
  lemma SearchKeepsExactlyMatches(data: seq<Row>, term: string, row: Row)
    ensures row in SearchFilter(data, term) <==>
      row in data && exists i :: OccursAt(ToLower(row.campaign), ToLower(term), i)
  {
    FilterMembership(data, (r: Row) => MatchesSearch(r, term), row);
    ContainsIffOccurs(ToLower(row.campaign), ToLower(term));
  }

  /** An empty search box keeps every row. */
  lemma EmptySearchKeepsAll(data: seq<Row>)
    ensures SearchFilter(data, "") == data
  {
    forall i | 0 <= i < |data|
      ensures MatchesSearch(data[i], "")
    {
      ContainsEmpty(ToLower(data[i].campaign));
    }
    FilterKeepsAll(data, (r: Row) => MatchesSearch(r, ""));
  }

  /** Both revenue bounds are inclusive; an empty box imposes nothing. */
  predicate InRevenueBounds(row: Row, minRevenue: Option<int>, maxRevenue: Option<int>) {
    && (minRevenue.None? || row.revenue >= minRevenue.value)
    && (maxRevenue.None? || row.revenue <= maxRevenue.value)
  }

  /** The two revenue filters, the minimum first. */
  function RevenueFilter(rows: seq<Row>, minRevenue: Option<int>, maxRevenue: Option<int>): (r: seq<Row>)
    ensures forall i :: 0 <= i < |r| ==> InRevenueBounds(r[i], minRevenue, maxRevenue)
    ensures multiset(r) <= multiset(rows)
  {
    var afterMin :=
      if minRevenue.Some? then Filter(rows, (row: Row) => row.revenue >= minRevenue.value) else rows;
    assert forall i :: 0 <= i < |afterMin| ==> InRevenueBounds(afterMin[i], minRevenue, None);
    var r := if maxRevenue.Some? then Filter(afterMin, (row: Row) => row.revenue <= maxRevenue.value) else afterMin;
    assert forall i :: 0 <= i < |r| ==> InRevenueBounds(r[i], minRevenue, None) by {
      forall i | 0 <= i < |r|
        ensures InRevenueBounds(r[i], minRevenue, None)
      {
        assert r[i] in multiset(afterMin);
        var j :| 0 <= j < |afterMin| && afterMin[j] == r[i];
      }
    }
    r
  }

  lemma RevenueFilterMembership(rows: seq<Row>, minRevenue: Option<int>, maxRevenue: Option<int>, row: Row)
    ensures row in RevenueFilter(rows, minRevenue, maxRevenue) <==>
      row in rows && InRevenueBounds(row, minRevenue, maxRevenue)
  {
    var afterMin :=
      if minRevenue.Some? then Filter(rows, (r: Row) => r.revenue >= minRevenue.value) else rows;
    if minRevenue.Some? {
      FilterMembership(rows, (r: Row) => r.revenue >= minRevenue.value, row);
    }
    if maxRevenue.Some? {
      FilterMembership(afterMin, (r: Row) => r.revenue <= maxRevenue.value, row);
    }
  }

  /** A minimum above the maximum matches nothing. */
  lemma CrossedBoundsMatchNothing(rows: seq<Row>, lo: int, hi: int)
    requires lo > hi
    ensures RevenueFilter(rows, Some(lo), Some(hi)) == []
  {
    var afterMin := Filter(rows, (r: Row) => r.revenue >= lo);
    forall i | 0 <= i < |afterMin|
      ensures !(afterMin[i].revenue <= hi)
    {
    }
    FilterDropsAll(afterMin, (r: Row) => r.revenue <= hi);
  }

  /** The rows that pass both filters, in data order. */
  function FilteredRows(data: seq<Row>, st: TableState): seq<Row> {
    RevenueFilter(SearchFilter(data, st.searchTerm), st.minRevenue, st.maxRevenue)
  }

  /** The rows that pass the search and both bounds. */
  predicate Passes(row: Row, st: TableState) {
    MatchesSearch(row, st.searchTerm) && InRevenueBounds(row, st.minRevenue, st.maxRevenue)
  }

  /** Filtering keeps exactly the passing rows, as a subsequence of the
      data in their original order. */
  lemma FilteredRowsAreMatchingSubsequence(data: seq<Row>, st: TableState)
    ensures IsSubsequence(FilteredRows(data, st), data)
    ensures forall row :: row in FilteredRows(data, st) <==> row in data && Passes(row, st)
  {
    var searched := SearchFilter(data, st.searchTerm);
    FilterIsSubsequence(data, (r: Row) => MatchesSearch(r, st.searchTerm));
    var afterMin :=
      if st.minRevenue.Some? then Filter(searched, (r: Row) => r.revenue >= st.minRevenue.value) else searched;
    if st.minRevenue.Some? {
      FilterIsSubsequence(searched, (r: Row) => r.revenue >= st.minRevenue.value);
      SubsequenceTransitive(afterMin, searched, data);
    }
    if st.maxRevenue.Some? {
      FilterIsSubsequence(afterMin, (r: Row) => r.revenue <= st.maxRevenue.value);
      SubsequenceTransitive(FilteredRows(data, st), afterMin, data);
    }
    forall row
      ensures row in FilteredRows(data, st) <==> row in data && Passes(row, st)
    {
      FilterMembership(data, (r: Row) => MatchesSearch(r, st.searchTerm), row);
      RevenueFilterMembership(searched, st.minRevenue, st.maxRevenue, row);
    }
  }

  /** Filtering keeps every copy of a passing row and no copy of any other. */
  lemma FilteredRowsCounts(data: seq<Row>, st: TableState, row: Row)
    ensures multiset(FilteredRows(data, st))[row] == if Passes(row, st) then multiset(data)[row] else 0
  {
    FilterCounts(data, (r: Row) => MatchesSearch(r, st.searchTerm), row);
    RevenueFilterCounts(SearchFilter(data, st.searchTerm), st.minRevenue, st.maxRevenue, row);
  }

  lemma RevenueFilterCounts(rows: seq<Row>, minRevenue: Option<int>, maxRevenue: Option<int>, row: Row)
    ensures multiset(RevenueFilter(rows, minRevenue, maxRevenue))[row] ==
      if InRevenueBounds(row, minRevenue, maxRevenue) then multiset(rows)[row] else 0
  {
    var afterMin := rows;
    if minRevenue.Some? {
      afterMin := Filter(rows, (r: Row) => r.revenue >= minRevenue.value);
      FilterCounts(rows, (r: Row) => r.revenue >= minRevenue.value, row);
    }
    if maxRevenue.Some? {
      FilterCounts(afterMin, (r: Row) => r.revenue <= maxRevenue.value, row);
    }
  }

  // ---------------------------------------------------------------- sorting

  /** A column value: text for the name, a number for everything else. */
  datatype Key = StrKey(s: string) | NumKey(x: real)

  function KeyOf(field: SortField, row: Row): Key {
    match field
    case Campaign => StrKey(row.campaign)
    case Revenue => NumKey(row.revenue as real)
    case Users => NumKey(row.users as real)
    case Conversions => NumKey(row.conversions as real)
    case Ctr => NumKey(row.ctr)
    case Cost => NumKey(row.cost as real)
  }

  /** `a.localeCompare(b)`, as the sign of the code-unit comparison. */
  function LocaleCompare(a: string, b: string): (c: int)
    ensures c < 0 <==> StrLess(a, b)
    ensures c > 0 <==> StrLess(b, a)
    ensures c == 0 <==> a == b
  {
    StrLessIrreflexive(a);
    StrLessTotal(a, b);
    if StrLess(a, b) then StrLessAsymmetric(a, b); -1
    else if a == b then 0
    else 1
  }

  /** The comparator handed to `Array.prototype.sort`: `localeCompare` for
      the name and a difference for numbers, operands swapped when
      descending. A negative result puts `a` first. */
  function Comparator(field: SortField, dir: SortDirection, a: Row, b: Row): (r: real)
    ensures r == 0.0 <==> KeyOf(field, a) == KeyOf(field, b)
    ensures field == Campaign ==>
      (r < 0.0 <==> if dir == Asc then StrLess(a.campaign, b.campaign) else StrLess(b.campaign, a.campaign))
    ensures field != Campaign ==>
      (r < 0.0 <==> if dir == Asc then KeyOf(field, a).x < KeyOf(field, b).x else KeyOf(field, b).x < KeyOf(field, a).x)
  {
    match (KeyOf(field, a), KeyOf(field, b))
    case (StrKey(x), StrKey(y)) =>
      (if dir == Asc then LocaleCompare(x, y) else LocaleCompare(y, x)) as real
    case (NumKey(x), NumKey(y)) =>
      if dir == Asc then x - y else y - x
    case (StrKey(_), NumKey(_)) => 0.0
    case (NumKey(_), StrKey(_)) => 0.0
  }

  /** `a` must be placed before `b`. */
  predicate Before(field: SortField, dir: SortDirection, a: Row, b: Row) {
    Comparator(field, dir, a, b) < 0.0
  }

  /** `Before` as a relation value, the form the sort takes. */
  function BeforeFn(field: SortField, dir: SortDirection): (Row, Row) -> bool {
    (a: Row, b: Row) => Before(field, dir, a, b)
  }

  /** Two rows the comparator cannot tell apart are exactly the rows with
      the same value in the sort column; otherwise exactly one goes first. */
  lemma BeforeTiesAreEqualKeys(field: SortField, dir: SortDirection, a: Row, b: Row)
    ensures Before(field, dir, a, b) ==> !Before(field, dir, b, a)
    ensures !Before(field, dir, a, b) && !Before(field, dir, b, a) <==> KeyOf(field, a) == KeyOf(field, b)
  {
    if field == Campaign {
      StrLessTotal(a.campaign, b.campaign);
      if StrLess(a.campaign, b.campaign) {
        StrLessAsymmetric(a.campaign, b.campaign);
      }
    }
  }

  /** If `a` goes before `c`, then any `b` goes after `a` or before `c`. */
  lemma BeforeSplits(field: SortField, dir: SortDirection, a: Row, b: Row, c: Row)
    requires Before(field, dir, a, c)
    ensures Before(field, dir, a, b) || Before(field, dir, b, c)
  {
    if field == Campaign {
      StrLessTotal(a.campaign, b.campaign);
      StrLessTotal(b.campaign, c.campaign);
      if dir == Asc && StrLess(b.campaign, a.campaign) {
        StrLessTransitive(b.campaign, a.campaign, c.campaign);
        StrLessAsymmetric(a.campaign, c.campaign);
      } else if dir == Desc && StrLess(a.campaign, b.campaign) {
        StrLessTransitive(c.campaign, a.campaign, b.campaign);
        StrLessAsymmetric(c.campaign, a.campaign);
      }
    }
  }

  /** The comparator is consistent on every column and direction, so the
      sort is well defined. */
  lemma ComparatorIsStrictWeakOrder(field: SortField, dir: SortDirection)
    ensures Sorting.StrictWeakOrder(BeforeFn(field, dir))
  {
    forall a: Row, b: Row | Before(field, dir, a, b)
      ensures !Before(field, dir, b, a)
    {
      BeforeTiesAreEqualKeys(field, dir, a, b);
    }
    forall a: Row, b: Row, c: Row | Before(field, dir, a, c)
      ensures Before(field, dir, a, b) || Before(field, dir, b, c)
    {
      BeforeSplits(field, dir, a, b, c);
    }
  }

  /** No row is placed after a row that must come after it. */
  predicate Sorted(s: seq<Row>, field: SortField, dir: SortDirection) {
    Sorting.SortedBy(s, BeforeFn(field, dir))
  }

  /** `filtered.sort(comparator)`, a stable sort. */
  function SortRows(rows: seq<Row>, field: SortField, dir: SortDirection): (r: seq<Row>)
    ensures multiset(r) == multiset(rows)
    ensures Sorted(r, field, dir)
  {
    ComparatorIsStrictWeakOrder(field, dir);
    Sorting.SortBySorted(rows, BeforeFn(field, dir));
    Sorting.SortBy(rows, BeforeFn(field, dir))
  }

  /** The rows whose sort column holds `k`, in order. */
  function WithKey(s: seq<Row>, field: SortField, k: Key): seq<Row> {
    Filter(s, KeyIs(field, k))
  }

  function KeyIs(field: SortField, k: Key): Row -> bool {
    (row: Row) => KeyOf(field, row) == k
  }

  /** Stability: rows that tie on the sort column keep their relative order. */
  lemma SortRowsStable(rows: seq<Row>, field: SortField, dir: SortDirection, k: Key)
    ensures WithKey(SortRows(rows, field, dir), field, k) == WithKey(rows, field, k)
  {
    forall a: Row, b: Row | KeyIs(field, k)(a) && KeyIs(field, k)(b)
      ensures !BeforeFn(field, dir)(a, b)
    {
      BeforeTiesAreEqualKeys(field, dir, a, b);
    }
    Sorting.SortByStable(rows, BeforeFn(field, dir), KeyIs(field, k));
  }

  /** `filteredAndSortedData`. */
  function FilteredAndSortedData(data: seq<Row>, st: TableState): (view: seq<Row>)
    ensures multiset(view) == multiset(FilteredRows(data, st))
    ensures Sorted(view, st.sortField, st.sortDirection)
  {
    SortRows(FilteredRows(data, st), st.sortField, st.sortDirection)
  }

  /** The view is a reordering of exactly the passing rows, sorted on the
      chosen column, with ties in data order. */
  lemma QueryIsStableSortOfMatches(data: seq<Row>, st: TableState)
    ensures var view := FilteredAndSortedData(data, st);
      && multiset(view) == multiset(FilteredRows(data, st))
      && (forall row :: row in view <==> row in data && Passes(row, st))
      && Sorted(view, st.sortField, st.sortDirection)
      && forall k :: WithKey(view, st.sortField, k) == WithKey(FilteredRows(data, st), st.sortField, k)
  {
    var view := FilteredAndSortedData(data, st);
    FilteredRowsAreMatchingSubsequence(data, st);
    forall row
      ensures row in view <==> row in FilteredRows(data, st)
    {
      assert row in view <==> row in multiset(view);
    }
    ComparatorIsStrictWeakOrder(st.sortField, st.sortDirection);
    Sorting.SortBySorted(FilteredRows(data, st), BeforeFn(st.sortField, st.sortDirection));
    forall k
      ensures WithKey(view, st.sortField, k) == WithKey(FilteredRows(data, st), st.sortField, k)
    {
      SortRowsStable(FilteredRows(data, st), st.sortField, st.sortDirection, k);
    }
  }

  /** The view holds each passing row as often as the data does, and no
      other row. */
  lemma QueryKeepsPassingCopies(data: seq<Row>, st: TableState, row: Row)
    ensures multiset(FilteredAndSortedData(data, st))[row] == if Passes(row, st) then multiset(data)[row] else 0
  {
    FilteredRowsCounts(data, st, row);
  }

  /** Running the query again on its own result gives the same rows. */
  lemma QueryIdempotent(data: seq<Row>, st: TableState)
    ensures FilteredAndSortedData(FilteredAndSortedData(data, st), st) == FilteredAndSortedData(data, st)
  {
    var view := FilteredAndSortedData(data, st);
    QueryIsStableSortOfMatches(data, st);
    forall i | 0 <= i < |view|
      ensures Passes(view[i], st)
    {
      assert view[i] in view;
    }
    FilterKeepsAll(view, (r: Row) => MatchesSearch(r, st.searchTerm));
    assert SearchFilter(view, st.searchTerm) == view;
    RevenueFilterKeepsAll(view, st.minRevenue, st.maxRevenue);
    Sorting.SortByOfSorted(view, BeforeFn(st.sortField, st.sortDirection));
  }

  lemma RevenueFilterKeepsAll(rows: seq<Row>, minRevenue: Option<int>, maxRevenue: Option<int>)
    requires forall i :: 0 <= i < |rows| ==> InRevenueBounds(rows[i], minRevenue, maxRevenue)
    ensures RevenueFilter(rows, minRevenue, maxRevenue) == rows
  {
    if minRevenue.Some? {
      FilterKeepsAll(rows, (r: Row) => r.revenue >= minRevenue.value);
    }
    if maxRevenue.Some? {
      FilterKeepsAll(rows, (r: Row) => r.revenue <= maxRevenue.value);
    }
  }

  // ------------------------------------------------------------- pagination

  /** `Math.ceil(n / itemsPerPage)`. */
  function TotalPages(n: nat): (pages: nat)
    ensures pages * ItemsPerPage >= n
    ensures pages == 0 || (pages - 1) * ItemsPerPage < n
  {
    (n + ItemsPerPage - 1) / ItemsPerPage
  }

  /** `slice((page - 1) * itemsPerPage, page * itemsPerPage)`. */
  function PaginatedData(rows: seq<Row>, page: int): (shown: seq<Row>)
    ensures page >= 1 ==> |shown| <= ItemsPerPage
    ensures page > TotalPages(|rows|) ==> shown == []
    ensures 1 <= page <= TotalPages(|rows|) ==>
      var from := (page - 1) * ItemsPerPage;
      var to := if page * ItemsPerPage < |rows| then page * ItemsPerPage else |rows|;
      from < to && shown == rows[from..to]
  {
    JsSlice(rows, (page - 1) * ItemsPerPage, page * ItemsPerPage)
  }

  /** Pages 1 to `k`, one after the other. */
  function PagesUpTo(rows: seq<Row>, k: nat): seq<Row> {
    if k == 0 then [] else PagesUpTo(rows, k - 1) + PaginatedData(rows, k)
  }

  lemma {:induction false} PagesUpToIsPrefix(rows: seq<Row>, k: nat)
    requires k <= TotalPages(|rows|)
    ensures PagesUpTo(rows, k) == rows[..if k * ItemsPerPage < |rows| then k * ItemsPerPage else |rows|]
  {
    if k > 0 {
      PagesUpToIsPrefix(rows, k - 1);
      var to := if k * ItemsPerPage < |rows| then k * ItemsPerPage else |rows|;
      assert rows[..(k - 1) * ItemsPerPage] + rows[(k - 1) * ItemsPerPage..to] == rows[..to];
    }
  }

  /** Reading every page in turn shows each filtered row exactly once, in
      order. */
  lemma PagesCoverAllRows(rows: seq<Row>)
    ensures PagesUpTo(rows, TotalPages(|rows|)) == rows
  {
    PagesUpToIsPrefix(rows, TotalPages(|rows|));
  }

  /** Row `i` of the view is row `i % 10` of page `i / 10 + 1`. */
  lemma RowIsOnItsPage(rows: seq<Row>, i: nat)
    requires i < |rows|
    ensures var page := i / ItemsPerPage + 1;
      && 1 <= page <= TotalPages(|rows|)
      && i % ItemsPerPage < |PaginatedData(rows, page)|
      && PaginatedData(rows, page)[i % ItemsPerPage] == rows[i]
  {
  }

  /** The pager, with its "Showing" line, appears only when there is more
      than one page, i.e. more than ten rows. */
  predicate PagerShown(n: nat) {
    TotalPages(n) > 1
  }

  lemma PagerShownIffMoreThanOnePage(n: nat)
    ensures PagerShown(n) <==> n > ItemsPerPage
  {
  }

  /** The two numbers of "Showing from to to of n results". */
  function ShowingRange(n: nat, page: int): (int, int) {
    ((page - 1) * ItemsPerPage + 1, if page * ItemsPerPage < n then page * ItemsPerPage else n)
  }

  /** On a page in range, the "Showing" line names exactly the positions
      (counted from one) of the rows on the page. */
  lemma ShowingLineMatchesPage(rows: seq<Row>, page: int)
    requires 1 <= page <= TotalPages(|rows|)
    ensures var (from, to) := ShowingRange(|rows|, page);
      && 1 <= from <= to <= |rows|
      && to - from + 1 == |PaginatedData(rows, page)|
      && PaginatedData(rows, page) == rows[from - 1..to]
  {
  }

  // ---------------------------------------------------------- state changes

  /** `handleSort`: clicking the current column flips the direction;
      clicking another column sorts by it, descending. */
  function HandleSort(st: TableState, field: SortField): (st': TableState)
    ensures st'.sortField == field
    ensures field == st.sortField ==> st'.sortDirection != st.sortDirection
    ensures field != st.sortField ==> st'.sortDirection == Desc
    ensures st'.searchTerm == st.searchTerm && st'.currentPage == st.currentPage
    ensures st'.minRevenue == st.minRevenue && st'.maxRevenue == st.maxRevenue
  {
    if field == st.sortField then
      st.(sortDirection := if st.sortDirection == Asc then Desc else Asc)
    else
      st.(sortField := field, sortDirection := Desc)
  }

  /** Two clicks on the current column restore the state. */
  lemma HandleSortTwiceRestores(st: TableState)
    ensures HandleSort(HandleSort(st, st.sortField), st.sortField) == st
  {
  }

  /** Two clicks on a new column leave it ascending. */
  lemma HandleSortNewFieldTwiceIsAscending(st: TableState, field: SortField)
    requires field != st.sortField
    ensures HandleSort(HandleSort(st, field), field).sortDirection == Asc
  {
  }

  /** Typing in the search box: only the term changes; the page is not reset. */
  function SetSearchTerm(st: TableState, term: string): (st': TableState)
    ensures st'.searchTerm == term
    ensures st'.(searchTerm := st.searchTerm) == st
  {
    st.(searchTerm := term)
  }

  /** Typing in a revenue box: only the two bounds change; the page is not reset. */
  function SetRevenueBounds(st: TableState, minRevenue: Option<int>, maxRevenue: Option<int>): (st': TableState)
    ensures st'.minRevenue == minRevenue && st'.maxRevenue == maxRevenue
    ensures st'.(minRevenue := st.minRevenue, maxRevenue := st.maxRevenue) == st
  {
    st.(minRevenue := minRevenue, maxRevenue := maxRevenue)
  }

  /** Since typing a search term keeps the page, a page that the narrower
      view no longer has shows no rows. */
  lemma StalePageShowsNothing(data: seq<Row>, st: TableState, term: string)
    requires st.currentPage > TotalPages(|FilteredAndSortedData(data, SetSearchTerm(st, term))|)
    ensures SetSearchTerm(st, term).currentPage == st.currentPage
    ensures PaginatedData(FilteredAndSortedData(data, SetSearchTerm(st, term)), st.currentPage) == []
  {
  }

  /** When the narrower view fits on one page the pager is not drawn, so a
      user left on a later page has no Previous button to leave it by: the
      table stays empty until a filter is widened or cleared. */
  lemma StaleSmallViewHasNoPager(data: seq<Row>, st: TableState, term: string)
    requires st.currentPage > 1
    requires |FilteredAndSortedData(data, SetSearchTerm(st, term))| <= ItemsPerPage
    ensures !PagerShown(|FilteredAndSortedData(data, SetSearchTerm(st, term))|)
    ensures PaginatedData(FilteredAndSortedData(data, SetSearchTerm(st, term)), SetSearchTerm(st, term).currentPage) == []
  {
    var n := |FilteredAndSortedData(data, SetSearchTerm(st, term))|;
    PagerShownIffMoreThanOnePage(n);
    assert TotalPages(n) <= 1;
  }

  /** `clearFilters`: empty search, no bounds, page 1; the sort is kept. */
  function ClearFilters(st: TableState): (st': TableState)
    ensures st'.searchTerm == [] && st'.minRevenue.None? && st'.maxRevenue.None?
    ensures st'.currentPage == 1
    ensures st'.sortField == st.sortField && st'.sortDirection == st.sortDirection
  {
    st.(searchTerm := "", minRevenue := None, maxRevenue := None, currentPage := 1)
  }

  /** After clearing, every row is back in the view. */
  lemma ClearFiltersKeepsAllRows(data: seq<Row>, st: TableState)
    ensures FilteredRows(data, ClearFilters(st)) == data
  {
    EmptySearchKeepsAll(data);
  }

  /** On first render nothing is filtered out: the view holds every row,
      highest revenue first, and page 1 shows the first ten of them. */
  lemma InitialViewShowsAllRows(data: seq<Row>)
    ensures FilteredRows(data, InitialState) == data
    ensures var view := FilteredAndSortedData(data, InitialState);
      && multiset(view) == multiset(data)
      && (forall i, j :: 0 <= i < j < |view| ==> view[i].revenue >= view[j].revenue)
      && PaginatedData(view, InitialState.currentPage)
         == view[..if |view| < ItemsPerPage then |view| else ItemsPerPage]
  {
    EmptySearchKeepsAll(data);
    var view := FilteredAndSortedData(data, InitialState);
    forall i, j | 0 <= i < j < |view|
      ensures view[i].revenue >= view[j].revenue
    {
      assert !BeforeFn(Revenue, Desc)(view[j], view[i]);
    }
  }

  /** The Previous button: `Math.max(1, currentPage - 1)`. */
  function PreviousPage(current: int): (p: int)
    ensures p >= 1
    ensures current > 1 ==> p == current - 1
    ensures current <= 1 ==> p == 1
  {
    if current - 1 > 1 then current - 1 else 1
  }

  /** The Next button: `Math.min(totalPages, currentPage + 1)`. */
  function NextPage(current: int, totalPages: int): (p: int)
    ensures p <= totalPages
    ensures current < totalPages ==> p == current + 1
    ensures current >= totalPages ==> p == totalPages
  {
    if totalPages < current + 1 then totalPages else current + 1
  }

  /** From a page in range, both buttons stay in range, and each undoes
      the other away from the ends. */
  lemma PagerStaysInRange(current: int, totalPages: int)
    requires 1 <= current <= totalPages
    ensures 1 <= PreviousPage(current) <= totalPages
    ensures 1 <= NextPage(current, totalPages) <= totalPages
    ensures current > 1 ==> NextPage(PreviousPage(current), totalPages) == current
    ensures current < totalPages ==> PreviousPage(NextPage(current, totalPages)) == current
  {
  }

  // ----------------------------------------------------------------- export

  /** A campaign row as the object `exportToCSV` receives, keys in
      declaration order. `ctrText` is how the CTR number is written. */
  function CsvRow(row: Row, ctrText: string): (r: Utils.Row)
    ensures |r| == |ColumnNames|
    ensures r[0].1 == Utils.Str(row.campaign)
    ensures forall j :: 1 <= j < |r| ==> r[j].1.Num?
  {
    [ ("campaign", Utils.Str(row.campaign)),
      ("revenue", Utils.Num(IntText(row.revenue))),
      ("users", Utils.Num(IntText(row.users))),
      ("conversions", Utils.Num(IntText(row.conversions))),
      ("ctr", Utils.Num(ctrText)),
      ("cost", Utils.Num(IntText(row.cost))) ]
  }

  /** `handleExport`: the filtered and sorted view, not just the page. */
  function ExportCsv(data: seq<Row>, st: TableState, ctrText: real -> string): (csv: string)
    ensures csv == [] <==> |FilteredAndSortedData(data, st)| == 0
  {
    var view := FilteredAndSortedData(data, st);
    Utils.ConvertToCsv(seq(|view|, i requires 0 <= i < |view| => CsvRow(view[i], ctrText(view[i].ctr))))
  }

  /** The object keys of every exported row, in declaration order. */
  const ColumnNames: seq<string> := ["campaign", "revenue", "users", "conversions", "ctr", "cost"]

  /** The first line of a non-empty export. */
  const CsvHeader: string := Seqs.Join(ColumnNames, ',')

  lemma CsvRowKeys(row: Row, ctrText: string)
    ensures Utils.Keys(CsvRow(row, ctrText)) == ColumnNames
  {
    var keys := Utils.Keys(CsvRow(row, ctrText));
    assert keys[0] == ColumnNames[0] && keys[1] == ColumnNames[1] && keys[2] == ColumnNames[2];
    assert keys[3] == ColumnNames[3] && keys[4] == ColumnNames[4] && keys[5] == ColumnNames[5];
  }

  /** The header line reads back as the six column names. */
  lemma CsvHeaderFields()
    ensures Split(CsvHeader, ',') == ColumnNames
  {
    SplitJoin(ColumnNames, ',');
  }

  lemma {:induction false} JoinStartsWithFirst(parts: seq<string>, sep: char)
    requires |parts| >= 1
    ensures |parts[0]| <= |Seqs.Join(parts, sep)|
    ensures Seqs.Join(parts, sep)[..|parts[0]|] == parts[0]
  {
  }

  /** The export is empty exactly when no row matches; otherwise it opens
      with the six column names in declaration order. */
  lemma ExportStartsWithHeader(data: seq<Row>, st: TableState, ctrText: real -> string)
    ensures ExportCsv(data, st, ctrText) == [] <==> |FilteredAndSortedData(data, st)| == 0
    ensures |FilteredAndSortedData(data, st)| > 0 ==>
      |CsvHeader| <= |ExportCsv(data, st, ctrText)| &&
      ExportCsv(data, st, ctrText)[..|CsvHeader|] == CsvHeader &&
      Split(ExportCsv(data, st, ctrText)[..|CsvHeader|], ',') == ColumnNames
  {
    var view := FilteredAndSortedData(data, st);
    if |view| > 0 {
      var rows := seq(|view|, i requires 0 <= i < |view| => CsvRow(view[i], ctrText(view[i].ctr)));
      CsvRowKeys(view[0], ctrText(view[0].ctr));
      assert Utils.Keys(rows[0]) == ColumnNames;
      var lines := seq(|rows|, i requires 0 <= i < |rows| => Utils.DataLine(ColumnNames, rows[i]));
      assert Utils.ConvertToCsv(rows) == Seqs.Join([CsvHeader] + lines, '\n');
      JoinStartsWithFirst([CsvHeader] + lines, '\n');
      CsvHeaderFields();
    }
  }

  // ---------------------------------------------------------------- example

  /** A string whose character `j` differs from the needle's does not
      start with the needle. */
  lemma NotPrefixAt(hay: string, needle: string, j: nat)
    requires j < |needle| <= |hay| && hay[j] != needle[j]
    ensures hay[..|needle|] != needle
  {
    assert hay[..|needle|][j] == hay[j];
  }

  lemma SocialLacksSea()
    ensures !Contains("social", "sea")
  {
    assert !Contains("l", "sea");
    assert "al"[1..] == "l";
    assert !Contains("al", "sea");
    assert "ial"[1..] == "al";
    NotPrefixAt("ial", "sea", 0);
    assert !Contains("ial", "sea");
    assert "cial"[1..] == "ial";
    NotPrefixAt("cial", "sea", 0);
    assert !Contains("cial", "sea");
    assert "ocial"[1..] == "cial";
    NotPrefixAt("ocial", "sea", 0);
    assert !Contains("ocial", "sea");
    assert "social"[1..] == "ocial";
    NotPrefixAt("social", "sea", 1);
    assert !Contains("social", "sea");
  }

  lemma DisplayLacksSea()
    ensures !Contains("display", "sea")
  {
    assert !Contains("y", "sea");
    assert "ay"[1..] == "y";
    assert !Contains("ay", "sea");
    assert "lay"[1..] == "ay";
    NotPrefixAt("lay", "sea", 0);
    assert !Contains("lay", "sea");
    assert "play"[1..] == "lay";
    NotPrefixAt("play", "sea", 0);
    assert !Contains("play", "sea");
    assert "splay"[1..] == "play";
    NotPrefixAt("splay", "sea", 1);
    assert !Contains("splay", "sea");
    assert "isplay"[1..] == "splay";
    NotPrefixAt("isplay", "sea", 0);
    assert !Contains("isplay", "sea");
    assert "display"[1..] == "isplay";
    NotPrefixAt("display", "sea", 0);
    assert !Contains("display", "sea");
  }

  lemma EmailLacksSea()
    ensures !Contains("email", "sea")
  {
    assert !Contains("l", "sea");
    assert "il"[1..] == "l";
    assert !Contains("il", "sea");
    assert "ail"[1..] == "il";
    NotPrefixAt("ail", "sea", 0);
    assert !Contains("ail", "sea");
    assert "mail"[1..] == "ail";
    NotPrefixAt("mail", "sea", 0);
    assert !Contains("mail", "sea");
    assert "email"[1..] == "mail";
    NotPrefixAt("email", "sea", 0);
    assert !Contains("email", "sea");
  }

  lemma LowerCampaignNames()
    ensures ToLower("sea") == "sea"
    ensures ToLower(MockData.Campaigns[0]) == "search"
    ensures ToLower(MockData.Campaigns[1]) == "social"
    ensures ToLower(MockData.Campaigns[2]) == "display"
    ensures ToLower(MockData.Campaigns[3]) == "email"
  {
    assert ToLower("Search")[0] == 's';
    assert ToLower("Social")[0] == 's';
    assert ToLower("Display")[0] == 'd';
    assert ToLower("Email")[0] == 'e';
  }

  lemma SearchMatchesSea(row: Row)
    requires row.campaign == MockData.Campaigns[0]
    ensures MatchesSearch(row, "sea")
  {
    LowerCampaignNames();
    assert "search"[..3] == "sea";
  }

  lemma OthersLackSea(row: Row)
    requires row.campaign in MockData.Campaigns[1..]
    ensures !MatchesSearch(row, "sea")
  {
    LowerCampaignNames();
    SocialLacksSea();
    DisplayLacksSea();
    EmailLacksSea();
    assert MockData.Campaigns[1..] == [MockData.Campaigns[1], MockData.Campaigns[2], MockData.Campaigns[3]];
  }

  /** Of the four campaign names, only Search matches "sea". */
  lemma OnlySearchMatchesSea(rows: seq<Row>)
    requires |rows| == 4
    requires forall i :: 0 <= i < 4 ==> rows[i].campaign == MockData.Campaigns[i]
    ensures SearchFilter(rows, "sea") == [rows[0]]
  {
    var p := (row: Row) => MatchesSearch(row, "sea");
    SearchMatchesSea(rows[0]);
    var tail := rows[1..];
    forall i | 0 <= i < |tail|
      ensures !p(tail[i])
    {
      assert tail[i].campaign == MockData.Campaigns[1..][i];
      OthersLackSea(tail[i]);
    }
    FilterDropsAll(tail, p);
    assert rows == [rows[0]] + tail;
  }

  /** On the four campaign rows, searching "sea" finds only Search, on a
      single page. */
  lemma SearchingSeaFindsSearch(rows: seq<Row>)
    requires |rows| == 4
    requires forall i :: 0 <= i < 4 ==> rows[i].campaign == MockData.Campaigns[i]
    ensures var st := InitialState.(searchTerm := "sea");
      && FilteredAndSortedData(rows, st) == [rows[0]]
      && TotalPages(|FilteredAndSortedData(rows, st)|) == 1
      && PaginatedData(FilteredAndSortedData(rows, st), 1) == [rows[0]]
  {
    var st := InitialState.(searchTerm := "sea");
    OnlySearchMatchesSea(rows);
    assert FilteredRows(rows, st) == [rows[0]];
    assert SortRows([rows[0]], st.sortField, st.sortDirection) == [rows[0]];
  }
}

=== FILE: mock_data.dfy ===
/** The dashboard's data source: thirty days of per-campaign records, their
    roll-up into one row per campaign, and the global summary figures.
    `Math.random` is replaced by draws passed in by the caller, and the
    calendar dates by thirty date strings, so every result is a function of
    its arguments. */
module MockData {
  import opened Wrappers
  import opened Seqs

  /** One day of one campaign. */
  datatype MetricData = MetricData(
    date: string,
    revenue: int,
    users: int,
    conversions: int,
    campaign: string)

  /** One campaign's totals, as the table shows them. */
  datatype CampaignData = CampaignData(
    campaign: string,
    revenue: int,
    users: int,
    conversions: int,
    ctr: real,
    cost: int)

  /** The three summed fields of a record. */
  datatype Measure = Revenue | Users | Conversions

  function Value(d: MetricData, m: Measure): int {
    match m
    case Revenue => d.revenue
    case Users => d.users
    case Conversions => d.conversions
  }

  /** `data.reduce((sum, d) => sum + d.<m>, 0)`: a left fold, so the last
      record is added last. */
  function Total(data: seq<MetricData>, m: Measure): (t: int)
    ensures data == [] ==> t == 0
    ensures |data| == 1 ==> t == Value(data[0], m)
    decreases |data|
  {
    if data == [] then 0 else Total(data[..|data| - 1], m) + Value(data[|data| - 1], m)
  }

  lemma {:induction false} TotalAppend(a: seq<MetricData>, b: seq<MetricData>, m: Measure)
    ensures Total(a + b, m) == Total(a, m) + Total(b, m)
    decreases |b|
  {
    if b == [] {
      assert a + b == a;
    } else {
      var b' := b[..|b| - 1];
      assert (a + b)[..|a + b| - 1] == a + b';
      TotalAppend(a, b', m);
    }
  }

  const Campaigns: seq<string> := ["Search", "Social", "Display", "Email"]

  /** The number of days the generator covers. */
  const Days: nat := 30

  /** A value `Math.random()` can return. */
  predicate IsRandom(x: real) {
    0.0 <= x < 1.0
  }

  /** The three random numbers drawn for one record. */
  datatype Draw = Draw(users: real, conversionRate: real, revenuePerConversion: real)

  predicate ValidDraw(d: Draw) {
    IsRandom(d.users) && IsRandom(d.conversionRate) && IsRandom(d.revenuePerConversion)
  }

  /** `Math.floor(Math.random() * 500) + 200`: between 200 and 699 users. */
  function DrawUsers(r: real): (users: int)
    requires IsRandom(r)
    ensures 200 <= users < 700
  {
    FloorAtLeast(r * 500.0, 0);
    FloorBelow(r * 500.0, 500);
    (r * 500.0).Floor + 200
  }

  /** `Math.random() * 0.15 + 0.05`: a 5-20% conversion rate. */
  function ConversionRate(r: real): (rate: real)
    requires IsRandom(r)
    ensures 0.05 <= rate < 0.2
  {
    r * 0.15 + 0.05
  }

  /** `Math.random() * 50 + 25`: 25 to 75 revenue per conversion. */
  function RevenuePerConversion(r: real): (rpc: real)
    requires IsRandom(r)
    ensures 25.0 <= rpc < 75.0
  {
    r * 50.0 + 25.0
  }

  /** `Math.floor(users * conversionRate)`: at least ten conversions and
      fewer than a fifth of the users. */
  function DrawConversions(users: int, r: real): (conversions: int)
    requires 200 <= users && IsRandom(r)
    ensures 10 <= conversions && 5 * conversions < users
  {
    var rate := ConversionRate(r);
    ConversionsBounds(users, rate);
    Times(users as real, rate).Floor
  }

  /** `Math.floor(conversions * revenuePerConversion)`. */
  function DrawRevenue(conversions: int, r: real): (revenue: int)
    requires 0 < conversions && IsRandom(r)
    ensures 25 * conversions <= revenue < 75 * conversions
  {
    var revenuePerConversion := RevenuePerConversion(r);
    RevenueBounds(conversions, revenuePerConversion);
    Times(conversions as real, revenuePerConversion).Floor
  }

  lemma ConversionsBounds(users: int, rate: real)
    requires 200 <= users && 0.05 <= rate < 0.2
    ensures 10 <= Times(users as real, rate).Floor
    ensures 5 * Times(users as real, rate).Floor < users
  {
    ScaledBetween(users as real, rate, 0.05, 0.2);
    ConversionsFloor(users, Times(users as real, rate));
  }

  lemma ConversionsFloor(users: int, v: real)
    requires 200 <= users && Times(users as real, 0.05) <= v < Times(users as real, 0.2)
    ensures 10 <= v.Floor && 5 * v.Floor < users
  {
    FloorAtLeast(v, 10);
    FloorFifth(v, users);
  }

  lemma RevenueBounds(conversions: int, rpc: real)
    requires 0 < conversions && 25.0 <= rpc < 75.0
    ensures 25 * conversions <= Times(conversions as real, rpc).Floor
    ensures Times(conversions as real, rpc).Floor < 75 * conversions
  {
    ScaledBetween(conversions as real, rpc, 25.0, 75.0);
    RevenueFloor(conversions, Times(conversions as real, rpc));
  }

  lemma RevenueFloor(conversions: int, v: real)
    requires Times(conversions as real, 25.0) <= v < Times(conversions as real, 75.0)
    ensures 25 * conversions <= v.Floor < 75 * conversions
  {
    FloorAtLeast(v, 25 * conversions);
    FloorBelow(v, 75 * conversions);
  }

  /** The body of the generator's inner loop. */
  function MakeRecord(date: string, campaign: string, d: Draw): (r: MetricData)
    requires ValidDraw(d)
    ensures r.date == date && r.campaign == campaign
    ensures Generated(r)
  {
    var users := DrawUsers(d.users);
    var conversions := DrawConversions(users, d.conversionRate);
    var revenue := DrawRevenue(conversions, d.revenuePerConversion);
    MetricData(date, revenue, users, conversions, campaign)
  }

  /** The ranges every generated record falls in. */
  predicate Generated(r: MetricData) {
    && 200 <= r.users < 700
    && 10 <= r.conversions
    && 5 * r.conversions < r.users
    && 25 * r.conversions <= r.revenue < 75 * r.conversions
  }

  /** What any record must satisfy for the summary ratios to make sense:
      nothing negative, and no more conversions than users. */
  predicate Plausible(r: MetricData) {
    0 <= r.conversions <= r.users && 0 <= r.revenue
  }

  lemma GeneratedIsPlausible(r: MetricData)
    requires Generated(r)
    ensures Plausible(r)
  {
  }

  /** `a * b` on numbers, taken as exact reals. */
  function Times(a: real, b: real): real {
    a * b
  }

  /** Multiplying by a positive number keeps the order of `lo <= b < hi`. */
  lemma ScaledBetween(a: real, b: real, lo: real, hi: real)
    requires a > 0.0 && lo <= b < hi
    ensures Times(a, lo) <= Times(a, b) < Times(a, hi)
  {
    MulAtMost(a, lo, b);
    MulLess(a, b, hi);
  }

  lemma MulLess(a: real, b: real, c: real)
    requires a > 0.0 && b < c
    ensures Times(a, b) < Times(a, c)
  {
  }

  lemma MulAtMost(a: real, b: real, c: real)
    requires a >= 0.0 && b <= c
    ensures Times(a, b) <= Times(a, c)
  {
  }

  lemma FloorAtLeast(y: real, n: int)
    requires n as real <= y
    ensures n <= y.Floor
  {
  }

  lemma FloorBelow(y: real, n: int)
    requires y < n as real
    ensures y.Floor < n
  {
  }

  lemma FloorFifth(x: real, n: int)
    requires x < n as real * 0.2
    ensures 5 * x.Floor < n
  {
  }

  /** `generateMockData`: for each of the thirty days, one record per
      campaign in the fixed campaign order, consuming the draws in turn. */
  method GenerateMockData(dates: seq<string>, draws: seq<Draw>) returns (data: seq<MetricData>)
    requires |dates| == Days
    requires |draws| == Days * |Campaigns|
    requires forall k :: 0 <= k < |draws| ==> ValidDraw(draws[k])
    ensures |data| == Days * |Campaigns|
    ensures forall k :: 0 <= k < |data| ==>
      data[k].date == dates[k / |Campaigns|] && data[k].campaign == Campaigns[k % |Campaigns|]
    ensures forall k :: 0 <= k < |data| ==> Generated(data[k])
    ensures forall k :: 0 <= k < |data| ==>
      data[k] == MakeRecord(dates[k / |Campaigns|], Campaigns[k % |Campaigns|], draws[k])
  {
    data := [];
    var i := 0;
    while i < Days
      invariant 0 <= i <= Days
      invariant |data| == i * |Campaigns|
      invariant forall k :: 0 <= k < |data| ==>
        data[k].date == dates[k / |Campaigns|] && data[k].campaign == Campaigns[k % |Campaigns|]
      invariant forall k :: 0 <= k < |data| ==> Generated(data[k])
      invariant forall k :: 0 <= k < |data| ==>
        data[k] == MakeRecord(dates[k / |Campaigns|], Campaigns[k % |Campaigns|], draws[k])
    {
      var j := 0;
      while j < |Campaigns|
        invariant 0 <= j <= |Campaigns|
        invariant |data| == i * |Campaigns| + j
        invariant forall k :: 0 <= k < |data| ==>
          data[k].date == dates[k / |Campaigns|] && data[k].campaign == Campaigns[k % |Campaigns|]
        invariant forall k :: 0 <= k < |data| ==> Generated(data[k])
        invariant forall k :: 0 <= k < |data| ==>
          data[k] == MakeRecord(dates[k / |Campaigns|], Campaigns[k % |Campaigns|], draws[k])
      {
        var k := |data|;
        assert k / |Campaigns| == i && k % |Campaigns| == j;
        data := data + [MakeRecord(dates[i], Campaigns[j], draws[k])];
        j := j + 1;
      }
      i := i + 1;
    }
  }

  /** A cost of `floor(revenue * f)` with `f` in [0.2, 0.5) is at most half of
      a non-negative revenue, and at least a fifth of it rounded down. */
  lemma CostBounds(revenue: int, f: real)
    requires 0.2 <= f < 0.5
    ensures var cost := Times(revenue as real, f).Floor;
      revenue >= 0 ==> 0 <= cost && 2 * cost <= revenue && revenue < 5 * cost + 5
  {
    if revenue >= 0 {
      MulAtMost(revenue as real, f, 0.5);
      MulAtMost(revenue as real, 0.2, f);
      CostFloor(revenue, Times(revenue as real, f));
    }
  }

  lemma CostFloor(revenue: int, y: real)
    requires 0 <= revenue && Times(revenue as real, 0.2) <= y <= Times(revenue as real, 0.5)
    ensures 0 <= y.Floor && 2 * y.Floor <= revenue && revenue < 5 * y.Floor + 5
  {
    FloorAtLeast(y, 0);
  }

  /** The two random numbers drawn for one campaign row. */
  datatype CampaignDraw = CampaignDraw(ctr: real, cost: real)

  predicate ValidCampaignDraw(d: CampaignDraw) {
    IsRandom(d.ctr) && IsRandom(d.cost)
  }

  /** `mockData.filter(d => d.campaign === campaign)`. */
  function CampaignMetrics(data: seq<MetricData>, campaign: string): (r: seq<MetricData>)
    ensures forall i :: 0 <= i < |r| ==> r[i].campaign == campaign
    ensures multiset(r) <= multiset(data)
  {
    Filter(data, (d: MetricData) => d.campaign == campaign)
  }

  /** The roll-up of one campaign: its three sums, a 2-7% CTR, and a cost of
      20-50% of its revenue, floored. */
  function Aggregate(data: seq<MetricData>, campaign: string, draw: CampaignDraw): (c: CampaignData)
    requires ValidCampaignDraw(draw)
    ensures c.campaign == campaign
    ensures 2.0 <= c.ctr < 7.0
    ensures c.revenue >= 0 ==> 0 <= c.cost && 2 * c.cost <= c.revenue && c.revenue < 5 * c.cost + 5
  {
    var metrics := CampaignMetrics(data, campaign);
    var totalRevenue := Total(metrics, Revenue);
    var fraction := draw.cost * 0.3 + 0.2;
    var cost := Times(totalRevenue as real, fraction).Floor;
    CostBounds(totalRevenue, fraction);
    CampaignData(
      campaign,
      totalRevenue,
      Total(metrics, Users),
      Total(metrics, Conversions),
      draw.ctr * 5.0 + 2.0,
      cost)
  }

  /** `campaignData`: one row per campaign, in the fixed order Search,
      Social, Display, Email. */
  function CampaignDataOf(data: seq<MetricData>, draws: seq<CampaignDraw>): (rows: seq<CampaignData>)
    requires |draws| == |Campaigns|
    requires forall i :: 0 <= i < |draws| ==> ValidCampaignDraw(draws[i])
    ensures |rows| == |Campaigns|
    ensures forall i :: 0 <= i < |rows| ==> rows[i].campaign == Campaigns[i]
    ensures forall i :: 0 <= i < |rows| ==>
      && rows[i].revenue == Total(CampaignMetrics(data, Campaigns[i]), Revenue)
      && rows[i].users == Total(CampaignMetrics(data, Campaigns[i]), Users)
      && rows[i].conversions == Total(CampaignMetrics(data, Campaigns[i]), Conversions)
    ensures forall i :: 0 <= i < |rows| ==> 2.0 <= rows[i].ctr < 7.0
    ensures forall i :: 0 <= i < |rows| && rows[i].revenue >= 0 ==>
      0 <= rows[i].cost && 2 * rows[i].cost <= rows[i].revenue && rows[i].revenue < 5 * rows[i].cost + 5
  {
    seq(|Campaigns|, i requires 0 <= i < |Campaigns| => Aggregate(data, Campaigns[i], draws[i]))
  }

  /** Every record belongs to one of the four campaigns. */
  predicate KnownCampaigns(data: seq<MetricData>) {
    forall k :: 0 <= k < |data| ==> data[k].campaign in Campaigns
  }

  /** The sum of the per-campaign totals. */
  function CampaignSum(data: seq<MetricData>, m: Measure): int {
    Total(CampaignMetrics(data, Campaigns[0]), m)
    + Total(CampaignMetrics(data, Campaigns[1]), m)
    + Total(CampaignMetrics(data, Campaigns[2]), m)
    + Total(CampaignMetrics(data, Campaigns[3]), m)
  }

  /** Appending a record to the data adds its value to the total of any
      filtered view that keeps it, and nothing to one that does not. */
  lemma FilteredTotalSnoc(front: seq<MetricData>, x: MetricData, p: MetricData -> bool, m: Measure)
    ensures Total(Filter(front + [x], p), m) == Total(Filter(front, p), m) + (if p(x) then Value(x, m) else 0)
  {
    FilterAppend(front, [x], p);
    TotalAppend(Filter(front, p), Filter([x], p), m);
    assert Filter([x], p) == (if p(x) then [x] else []);
    assert Total([x], m) == Total([], m) + Value(x, m);
  }

  lemma CampaignTotalSnoc(front: seq<MetricData>, x: MetricData, campaign: string, m: Measure)
    ensures Total(CampaignMetrics(front + [x], campaign), m)
         == Total(CampaignMetrics(front, campaign), m) + (if x.campaign == campaign then Value(x, m) else 0)
  {
    FilteredTotalSnoc(front, x, (d: MetricData) => d.campaign == campaign, m);
  }

  /** When every record names one of the four campaigns, splitting the
      records by campaign loses and double-counts nothing. */
  lemma {:induction false} CampaignsPartitionTotals(data: seq<MetricData>, m: Measure)
    requires KnownCampaigns(data)
    ensures CampaignSum(data, m) == Total(data, m)
    decreases |data|
  {
    if data != [] {
      var front := data[..|data| - 1];
      var x := data[|data| - 1];
      assert data == front + [x];
      assert KnownCampaigns(front);
      CampaignsPartitionTotals(front, m);
      CampaignTotalSnoc(front, x, Campaigns[0], m);
      CampaignTotalSnoc(front, x, Campaigns[1], m);
      CampaignTotalSnoc(front, x, Campaigns[2], m);
      CampaignTotalSnoc(front, x, Campaigns[3], m);
      CountedOnce(x, m);
    }
  }

  /** Whatever campaigns the records name, the four campaign sums never
      exceed the overall sum of non-negative figures: a record of an unknown
      campaign is simply left out of every row. */
  lemma {:induction false} CampaignSumAtMostTotal(data: seq<MetricData>, m: Measure)
    requires forall k :: 0 <= k < |data| ==> Plausible(data[k])
    ensures CampaignSum(data, m) <= Total(data, m)
    decreases |data|
  {
    if data != [] {
      var front := data[..|data| - 1];
      var x := data[|data| - 1];
      assert data == front + [x];
      CampaignSumAtMostTotal(front, m);
      CampaignTotalSnoc(front, x, Campaigns[0], m);
      CampaignTotalSnoc(front, x, Campaigns[1], m);
      CampaignTotalSnoc(front, x, Campaigns[2], m);
      CampaignTotalSnoc(front, x, Campaigns[3], m);
      CountedAtMostOnce(x, m);
    }
  }

  /** A record with a non-negative figure adds at most that figure to the
      four campaign rows together. */
  lemma CountedAtMostOnce(x: MetricData, m: Measure)
    requires Plausible(x)
    ensures (if x.campaign == Campaigns[0] then Value(x, m) else 0)
          + (if x.campaign == Campaigns[1] then Value(x, m) else 0)
          + (if x.campaign == Campaigns[2] then Value(x, m) else 0)
          + (if x.campaign == Campaigns[3] then Value(x, m) else 0)
         <= Value(x, m)
  {
    CampaignsDistinct();
  }

  /** The four campaign names are pairwise different. */
  lemma CampaignsDistinct()
    ensures forall i, j :: 0 <= i < j < |Campaigns| ==> Campaigns[i] != Campaigns[j]
  {
    assert Campaigns[0][1] != Campaigns[1][1];
  }

  /** A record of a known campaign is counted by exactly one campaign row. */
  lemma CountedOnce(x: MetricData, m: Measure)
    requires x.campaign in Campaigns
    ensures (if x.campaign == Campaigns[0] then Value(x, m) else 0)
          + (if x.campaign == Campaigns[1] then Value(x, m) else 0)
          + (if x.campaign == Campaigns[2] then Value(x, m) else 0)
          + (if x.campaign == Campaigns[3] then Value(x, m) else 0)
         == Value(x, m)
  {
    CampaignsDistinct();
  }

  /** The four campaign rows add up to the global totals when every record
      names one of the four campaigns. */
  lemma CampaignRowsAddUpToTotals(data: seq<MetricData>, draws: seq<CampaignDraw>)
    requires |draws| == |Campaigns|
    requires forall i :: 0 <= i < |draws| ==> ValidCampaignDraw(draws[i])
    requires KnownCampaigns(data)
    ensures var rows := CampaignDataOf(data, draws);
      && rows[0].revenue + rows[1].revenue + rows[2].revenue + rows[3].revenue == Total(data, Revenue)
      && rows[0].users + rows[1].users + rows[2].users + rows[3].users == Total(data, Users)
      && rows[0].conversions + rows[1].conversions + rows[2].conversions + rows[3].conversions
         == Total(data, Conversions)
  {
    CampaignsPartitionTotals(data, Revenue);
    CampaignsPartitionTotals(data, Users);
    CampaignsPartitionTotals(data, Conversions);
  }

  /** The global figures of the dashboard header. A ratio whose divisor is
      zero, which JavaScript evaluates to `NaN` or `Infinity`, is `None`. */
  datatype Summary = Summary(
    totalRevenue: int,
    totalUsers: int,
    totalConversions: int,
    averageOrderValue: Option<real>,
    conversionRate: Option<real>)

  /** `a / b` on numbers, for a non-zero divisor. */
  function Divide(a: real, b: real): real
    requires b != 0.0
  {
    a / b
  }

  lemma DivMul(a: real, b: real)
    requires b != 0.0
    ensures Times(Divide(a, b), b) == a
  {
  }

  /** `a / b`, or `None` where JavaScript's quotient is not a finite number. */
  function Ratio(a: real, b: real): (q: Option<real>)
    ensures q.None? <==> b == 0.0
    ensures q.Some? ==> Times(q.value, b) == a
  {
    if b == 0.0 then None else DivMul(a, b); Some(Divide(a, b))
  }

  /** `(a / b) * 100`, or `None` where JavaScript's result is not a finite
      number. */
  function Percentage(a: real, b: real): (q: Option<real>)
    ensures q.None? <==> b == 0.0
    ensures q.Some? ==> Times(q.value, b) == 100.0 * a
  {
    if b == 0.0 then None else PercentMul(a, b); Some(Divide(a, b) * 100.0)
  }

  /** `summaryMetrics`. Neither ratio guards its divisor: the average order
      value is undefined without conversions, the rate without users. */
  function SummaryMetrics(data: seq<MetricData>): (s: Summary)
    ensures s.totalRevenue == Total(data, Revenue)
    ensures s.totalUsers == Total(data, Users)
    ensures s.totalConversions == Total(data, Conversions)
    ensures s.averageOrderValue.None? <==> s.totalConversions == 0
    ensures s.averageOrderValue.Some? ==>
      Times(s.averageOrderValue.value, s.totalConversions as real) == s.totalRevenue as real
    ensures s.conversionRate.None? <==> s.totalUsers == 0
    ensures s.conversionRate.Some? ==>
      Times(s.conversionRate.value, s.totalUsers as real) == 100.0 * s.totalConversions as real
  {
    var revenue := Total(data, Revenue);
    var users := Total(data, Users);
    var conversions := Total(data, Conversions);
    Summary(revenue, users, conversions,
      Ratio(revenue as real, conversions as real), Percentage(conversions as real, users as real))
  }

  lemma PercentMul(a: real, b: real)
    requires b != 0.0
    ensures Times(Divide(a, b) * 100.0, b) == 100.0 * a
  {
  }

  /** A quotient lies between the factors that bound the dividend. */
  lemma RatioBetween(a: real, b: real, lo: real, hi: real)
    requires b > 0.0 && Times(lo, b) <= a <= Times(hi, b)
    ensures lo <= Divide(a, b) <= hi
  {
    var q := Divide(a, b);
    DivMul(a, b);
    if q < lo {
      MulLess(b, q, lo);
    }
    if q > hi {
      MulLess(b, hi, q);
    }
  }

  /** Over records that are each plausible, the totals are too. */
  lemma {:induction false} PlausibleTotals(data: seq<MetricData>)
    requires forall k :: 0 <= k < |data| ==> Plausible(data[k])
    ensures 0 <= Total(data, Conversions) <= Total(data, Users)
    ensures 0 <= Total(data, Revenue)
    decreases |data|
  {
    if data != [] {
      PlausibleTotals(data[..|data| - 1]);
    }
  }

  /** With no record converting more users than it has, the conversion rate,
      wherever there are users, is a percentage, and 0 when nobody
      converted; the average order value, wherever there are conversions, is
      not negative; and data without users has no conversions either. */
  lemma SummaryRatiosInRange(data: seq<MetricData>)
    requires forall k :: 0 <= k < |data| ==> Plausible(data[k])
    ensures var s := SummaryMetrics(data);
      && (s.conversionRate.Some? ==> 0.0 <= s.conversionRate.value <= 100.0)
      && (s.conversionRate.Some? && s.totalConversions == 0 ==> s.conversionRate.value == 0.0)
      && (s.averageOrderValue.Some? ==> 0.0 <= s.averageOrderValue.value)
      && (s.conversionRate.None? ==> s.averageOrderValue.None?)
  {
    PlausibleTotals(data);
    var s := SummaryMetrics(data);
    var c := s.totalConversions as real;
    var u := s.totalUsers as real;
    var r := s.totalRevenue as real;
    if u > 0.0 {
      RatioBetween(c, u, 0.0, 1.0);
      if c == 0.0 {
        RatioBetween(c, u, 0.0, 0.0);
      }
    }
    if c > 0.0 {
      if r == 0.0 {
        RatioBetween(r, c, 0.0, 0.0);
      } else {
        RatioBetween(r, c, 0.0, Divide(r, c));
      }
    }
  }

  /** Over generated records the totals keep the per-record ranges. */
  lemma {:induction false} GeneratedTotals(data: seq<MetricData>)
    requires forall k :: 0 <= k < |data| ==> Generated(data[k])
    ensures 10 * |data| <= Total(data, Conversions)
    ensures 200 * |data| <= Total(data, Users) <= 699 * |data|
    ensures 5 * Total(data, Conversions) <= Total(data, Users)
    ensures |data| > 0 ==> 5 * Total(data, Conversions) < Total(data, Users)
    ensures 25 * Total(data, Conversions) <= Total(data, Revenue) <= 75 * Total(data, Conversions)
    ensures |data| > 0 ==> Total(data, Revenue) < 75 * Total(data, Conversions)
    decreases |data|
  {
    if data != [] {
      GeneratedTotals(data[..|data| - 1]);
    }
  }

  /** On generated data the summary is always defined: both denominators
      are positive, an order is worth 25 to 75 on average, and at most a
      fifth of the users convert. */
  lemma GeneratedSummaryRanges(data: seq<MetricData>)
    requires |data| > 0
    requires forall k :: 0 <= k < |data| ==> Generated(data[k])
    ensures SummaryMetrics(data).averageOrderValue.Some? && SummaryMetrics(data).conversionRate.Some?
    ensures 25.0 <= SummaryMetrics(data).averageOrderValue.value <= 75.0
    ensures 0.0 <= SummaryMetrics(data).conversionRate.value <= 20.0
  {
    GeneratedTotals(data);
    var s := SummaryMetrics(data);
    var c := s.totalConversions as real;
    var u := s.totalUsers as real;
    var r := s.totalRevenue as real;
    RatioBetween(r, c, 25.0, 75.0);
    RatioBetween(c, u, 0.0, 0.2);
  }
}

=== FILE: seqs.dfy ===
/** Sequence operations the dashboard borrows from JavaScript's `Array`:
    `filter`, `slice` (with its negative-index rule) and `join`, plus `split`,
    which is `join`'s inverse and is how the exported text is read back. */
module Seqs {

  /** `Array.prototype.filter`: the elements that satisfy `p`, in their
      original order. */
  function Filter<T>(s: seq<T>, p: T -> bool): (r: seq<T>)
    ensures |r| <= |s|
    ensures forall i :: 0 <= i < |r| ==> p(r[i])
    ensures multiset(r) <= multiset(s)
  {
    if s == [] then []
    else
      assert s == [s[0]] + s[1..];
      if p(s[0]) then [s[0]] + Filter(s[1..], p) else Filter(s[1..], p)
  }

  /** An element survives the filter exactly when it was there and passes. */
  lemma {:induction false} FilterMembership<T>(s: seq<T>, p: T -> bool, x: T)
    ensures x in Filter(s, p) <==> x in s && p(x)
    decreases |s|
  {
    if s != [] {
      FilterMembership(s[1..], p, x);
      assert s == [s[0]] + s[1..];
    }
  }

  /** Every passing element survives as often as it occurs; every failing
      one is gone. */
  lemma {:induction false} FilterCounts<T>(s: seq<T>, p: T -> bool, x: T)
    ensures multiset(Filter(s, p))[x] == if p(x) then multiset(s)[x] else 0
    decreases |s|
  {
    if s != [] {
      FilterCounts(s[1..], p, x);
      assert s == [s[0]] + s[1..];
    }
  }

  /** `a` is `b` with some elements deleted: same relative order, nothing added. */
  predicate IsSubsequence<T(==)>(a: seq<T>, b: seq<T>)
    decreases |b|
  {
    if a == [] then true
    else if b == [] then false
    else (a[0] == b[0] && IsSubsequence(a[1..], b[1..])) || IsSubsequence(a, b[1..])
  }

  lemma {:induction false} FilterIsSubsequence<T>(s: seq<T>, p: T -> bool)
    ensures IsSubsequence(Filter(s, p), s)
    decreases |s|
  {
    if s != [] {
      FilterIsSubsequence(s[1..], p);
      if !p(s[0]) {
        var r := Filter(s[1..], p);
        if r != [] {
          assert IsSubsequence(r, s[1..]);
        }
      }
    }
  }

  /** Deleting elements twice is deleting elements once. */
  lemma {:induction false} SubsequenceTransitive<T>(a: seq<T>, b: seq<T>, c: seq<T>)
    requires IsSubsequence(a, b) && IsSubsequence(b, c)
    ensures IsSubsequence(a, c)
    decreases |c|
  {
    if a != [] && c != [] {
      if b[0] == c[0] && IsSubsequence(b[1..], c[1..]) {
        if a[0] == b[0] && IsSubsequence(a[1..], b[1..]) {
          SubsequenceTransitive(a[1..], b[1..], c[1..]);
        } else {
          SubsequenceTransitive(a, b[1..], c[1..]);
        }
      } else {
        SubsequenceTransitive(a, b, c[1..]);
      }
    }
  }

  lemma {:induction false} FilterAppend<T>(a: seq<T>, b: seq<T>, p: T -> bool)
    ensures Filter(a + b, p) == Filter(a, p) + Filter(b, p)
    decreases |a|
  {
    if a != [] {
      assert (a + b)[1..] == a[1..] + b;
      FilterAppend(a[1..], b, p);
    } else {
      assert a + b == b;
    }
  }

  /** Filtering a sequence every element of which already passes changes nothing. */
  lemma {:induction false} FilterKeepsAll<T>(s: seq<T>, p: T -> bool)
    requires forall i :: 0 <= i < |s| ==> p(s[i])
    ensures Filter(s, p) == s
    decreases |s|
  {
    if s != [] {
      FilterKeepsAll(s[1..], p);
    }
  }

  /** Filtering with a predicate no element passes yields nothing. */
  lemma {:induction false} FilterDropsAll<T>(s: seq<T>, p: T -> bool)
    requires forall i :: 0 <= i < |s| ==> !p(s[i])
    ensures Filter(s, p) == []
    decreases |s|
  {
    if s != [] {
      FilterDropsAll(s[1..], p);
    }
  }

  /** How `slice` turns one of its arguments into a position in `[0, len]`:
      a negative argument counts back from the end and is clipped at 0,
      a positive one is clipped at `len`. */
  function SliceIndex(i: int, len: nat): (k: nat)
    ensures k <= len
    ensures 0 <= i <= len ==> k == i
    ensures i < 0 && len + i >= 0 ==> k == len + i
  {
    if i < 0 then (if len + i < 0 then 0 else len + i)
    else if i > len then len
    else i
  }

  /** `Array.prototype.slice(start, end)`. */
  function JsSlice<T>(s: seq<T>, start: int, end: int): (r: seq<T>)
    ensures |r| <= |s|
    ensures SliceIndex(start, |s|) + |r| <= |s|
    ensures |r| == if SliceIndex(start, |s|) < SliceIndex(end, |s|)
                   then SliceIndex(end, |s|) - SliceIndex(start, |s|) else 0
    ensures forall i :: 0 <= i < |r| ==> r[i] == s[SliceIndex(start, |s|) + i]
  {
    var from := SliceIndex(start, |s|);
    var to := SliceIndex(end, |s|);
    if from < to then s[from..to] else []
  }

  /** `slice(-n)` keeps the last `n` elements, or all of them when there are fewer. */
  lemma LastSliceIsSuffix<T>(s: seq<T>, n: nat)
    requires n > 0
    ensures var r := JsSlice(s, -(n as int), |s|);
      && |r| == (if |s| < n then |s| else n)
      && r == s[|s| - |r|..]
  {
  }

  /** `Array.prototype.join(sep)` for a one-character separator. */
  function Join(parts: seq<string>, sep: char): (r: string)
    ensures |parts| == 1 ==> r == parts[0]
    ensures |parts| > 1 ==> sep in r
    decreases |parts|
  {
    if |parts| == 0 then []
    else if |parts| == 1 then parts[0]
    else parts[0] + [sep] + Join(parts[1..], sep)
  }

  /** `String.prototype.split(sep)` for a one-character separator: the pieces
      between separators; the empty string splits into one empty piece. */
  function Split(s: string, sep: char): (r: seq<string>)
    ensures |r| >= 1
    decreases |s|
  {
    if s == [] then [[]]
    else if s[0] == sep then [[]] + Split(s[1..], sep)
    else
      var rest := Split(s[1..], sep);
      [[s[0]] + rest[0]] + rest[1..]
  }

  /** None of `parts` contains the separator. */
  predicate FreeOf(parts: seq<string>, sep: char) {
    forall i :: 0 <= i < |parts| ==> sep !in parts[i]
  }

  lemma {:induction false} SplitFree(p: string, sep: char)
    requires sep !in p
    ensures Split(p, sep) == [p]
    decreases |p|
  {
    if p != [] {
      SplitFree(p[1..], sep);
      assert [p[0]] + p[1..] == p;
    }
  }

  lemma {:induction false} SplitAtSeparator(p: string, sep: char, t: string)
    requires sep !in p
    ensures Split(p + [sep] + t, sep) == [p] + Split(t, sep)
    decreases |p|
  {
    var s := p + [sep] + t;
    if p == [] {
      assert s[0] == sep && s[1..] == t;
    } else {
      assert s[0] == p[0] && s[1..] == p[1..] + [sep] + t;
      SplitAtSeparator(p[1..], sep, t);
      assert [p[0]] + p[1..] == p;
    }
  }

  /** Splitting undoes joining, as long as no part contains the separator. */
  lemma {:induction false} SplitJoin(parts: seq<string>, sep: char)
    requires |parts| >= 1
    requires FreeOf(parts, sep)
    ensures Split(Join(parts, sep), sep) == parts
    decreases |parts|
  {
    if |parts| == 1 {
      SplitFree(parts[0], sep);
    } else {
      assert sep !in parts[0];
      SplitAtSeparator(parts[0], sep, Join(parts[1..], sep));
      SplitJoin(parts[1..], sep);
      assert [parts[0]] + parts[1..] == parts;
    }
  }
}

=== FILE: sorting.dfy ===
/** A stable sort by a comparator, as `Array.prototype.sort` performs it
    (stability has been required of it since ECMAScript 2019). The
    comparator is abstracted to the relation `before(a, b)`: "`a` must be
    placed ahead of `b`", i.e. the comparator returned a negative number. */
module Sorting {
  import opened Seqs

  /** What a consistent comparator provides: nothing goes before itself,
      and if `a` goes before `c` then every `b` goes after `a` or before
      `c` (so "neither goes first" is an equivalence). */
  ghost predicate StrictWeakOrder<T(!new)>(before: (T, T) -> bool) {
    && (forall a, b :: before(a, b) ==> !before(b, a))
    && (forall a, b, c :: before(a, c) ==> before(a, b) || before(b, c))
  }

  /** No element is placed after an element that must come after it. */
  predicate SortedBy<T>(s: seq<T>, before: (T, T) -> bool) {
    forall i, j :: 0 <= i < j < |s| ==> !before(s[j], s[i])
  }

  /** Insert `x` after the elements that must precede it and ahead of all
      others, so it precedes the elements it ties with. */
  function Insert<T>(x: T, s: seq<T>, before: (T, T) -> bool): (r: seq<T>)
    ensures multiset(r) == multiset(s) + multiset{x}
    ensures |r| == |s| + 1
    decreases |s|
  {
    if s == [] then [x]
    else if before(s[0], x) then
      assert s == [s[0]] + s[1..];
      [s[0]] + Insert(x, s[1..], before)
    else [x] + s
  }

  /** Insertion sort: each element, from the last to the first, inserted
      into the sorted rest. */
  function SortBy<T>(s: seq<T>, before: (T, T) -> bool): (r: seq<T>)
    ensures multiset(r) == multiset(s)
    ensures |r| == |s|
    decreases |s|
  {
    if s == [] then []
    else
      assert s == [s[0]] + s[1..];
      Insert(s[0], SortBy(s[1..], before), before)
  }

  lemma {:induction false} InsertSorted<T(!new)>(x: T, s: seq<T>, before: (T, T) -> bool)
    requires StrictWeakOrder(before)
    requires SortedBy(s, before)
    ensures SortedBy(Insert(x, s, before), before)
    decreases |s|
  {
    if s != [] {
      if before(s[0], x) {
        InsertSorted(x, s[1..], before);
        var t := Insert(x, s[1..], before);
        forall j | 0 <= j < |t|
          ensures !before(t[j], s[0])
        {
          assert t[j] in multiset(t);
          if t[j] != x {
            assert t[j] in multiset(s[1..]);
            var k :| 0 <= k < |s[1..]| && s[1..][k] == t[j];
            assert s[k + 1] == t[j];
          }
        }
      } else {
        assert forall j :: 0 <= j < |s| ==> !before(s[j], x);
      }
    }
  }

  /** The result is in order. */
  lemma {:induction false} SortBySorted<T(!new)>(s: seq<T>, before: (T, T) -> bool)
    requires StrictWeakOrder(before)
    ensures SortedBy(SortBy(s, before), before)
    decreases |s|
  {
    if s != [] {
      SortBySorted(s[1..], before);
      InsertSorted(s[0], SortBy(s[1..], before), before);
    }
  }

  /** Two elements, at most one of which passes, filter the same in either order. */
  lemma TiesCommute<T>(a: T, b: T, p: T -> bool, rest: seq<T>)
    requires !(p(a) && p(b))
    ensures Filter([a], p) + (Filter([b], p) + rest) == Filter([b], p) + (Filter([a], p) + rest)
  {
    if p(a) {
      assert Filter([b], p) == [];
    } else {
      assert Filter([a], p) == [];
    }
  }

  /** A class `p` of mutually tied elements: no member goes before another. */
  ghost predicate TieClass<T(!new)>(p: T -> bool, before: (T, T) -> bool) {
    forall a, b :: p(a) && p(b) ==> !before(a, b)
  }

  lemma {:induction false} InsertKeepsTies<T(!new)>(x: T, s: seq<T>, before: (T, T) -> bool, p: T -> bool)
    requires TieClass(p, before)
    ensures Filter(Insert(x, s, before), p) == Filter([x] + s, p)
    decreases |s|
  {
    if s != [] && before(s[0], x) {
      var rest := s[1..];
      var t := Insert(x, rest, before);
      assert s == [s[0]] + rest;
      calc {
        Filter(Insert(x, s, before), p);
        Filter([s[0]] + t, p);
        { FilterAppend([s[0]], t, p); }
        Filter([s[0]], p) + Filter(t, p);
        { InsertKeepsTies(x, rest, before, p); FilterAppend([x], rest, p); }
        Filter([s[0]], p) + (Filter([x], p) + Filter(rest, p));
        { TiesCommute(s[0], x, p, Filter(rest, p)); }
        Filter([x], p) + (Filter([s[0]], p) + Filter(rest, p));
        { FilterAppend([s[0]], rest, p); }
        Filter([x], p) + Filter(s, p);
        { FilterAppend([x], s, p); }
        Filter([x] + s, p);
      }
    }
  }

  /** Stability: elements of one tie class keep their relative order. */
  lemma {:induction false} SortByStable<T(!new)>(s: seq<T>, before: (T, T) -> bool, p: T -> bool)
    requires TieClass(p, before)
    ensures Filter(SortBy(s, before), p) == Filter(s, p)
    decreases |s|
  {
    if s != [] {
      var rest := s[1..];
      var t := SortBy(rest, before);
      assert s == [s[0]] + rest;
      calc {
        Filter(SortBy(s, before), p);
        Filter(Insert(s[0], t, before), p);
        { InsertKeepsTies(s[0], t, before, p); }
        Filter([s[0]] + t, p);
        { FilterAppend([s[0]], t, p); }
        Filter([s[0]], p) + Filter(t, p);
        { SortByStable(rest, before, p); }
        Filter([s[0]], p) + Filter(rest, p);
        { FilterAppend([s[0]], rest, p); }
        Filter(s, p);
      }
    }
  }

  /** Sorting a sequence already in order changes nothing. */
  lemma {:induction false} SortByOfSorted<T>(s: seq<T>, before: (T, T) -> bool)
    requires SortedBy(s, before)
    ensures SortBy(s, before) == s
    decreases |s|
  {
    if s != [] {
      assert SortedBy(s[1..], before);
      SortByOfSorted(s[1..], before);
      if |s| > 1 {
        assert !before(s[1], s[0]);
      }
      assert [s[0]] + s[1..] == s;
    }
  }
}

=== FILE: text.dfy ===
/** The string operations the table relies on: `toLowerCase`, `includes`,
    `localeCompare`, and how JavaScript writes an integer as text. */
module Text {

  /** `toLowerCase` on one character, for the ASCII letters. */
  function LowerChar(c: char): char {
    if 'A' <= c <= 'Z' then (c as int + 32) as char else c
  }

  predicate IsUpper(c: char) {
    'A' <= c <= 'Z'
  }

  /** `String.prototype.toLowerCase` restricted to ASCII case mapping. */
  function ToLower(s: string): (r: string)
    ensures |r| == |s|
    ensures forall i :: 0 <= i < |s| ==> !IsUpper(r[i])
    ensures forall i :: 0 <= i < |s| && !IsUpper(s[i]) ==> r[i] == s[i]
    ensures forall i :: 0 <= i < |s| && IsUpper(s[i]) ==> r[i] as int == s[i] as int + 32
  {
    seq(|s|, i requires 0 <= i < |s| => LowerChar(s[i]))
  }

  lemma ToLowerIdempotent(s: string)
    ensures ToLower(ToLower(s)) == ToLower(s)
  {
  }

  /** `needle` occurs in `hay` starting at position `i`. */
  predicate OccursAt(hay: string, needle: string, i: int) {
    0 <= i && i + |needle| <= |hay| && hay[i..i + |needle|] == needle
  }

  /** `String.prototype.includes`: the search scans the start positions from
      left to right and stops at the first one where `needle` is a prefix. */
  predicate Contains(hay: string, needle: string): (b: bool)
    ensures b ==> |needle| <= |hay|
    decreases |hay|
  {
    (|needle| <= |hay| && hay[..|needle|] == needle)
    || (|hay| > 0 && Contains(hay[1..], needle))
  }

  /** `Contains` finds exactly the substrings: the scan succeeds iff some
      position holds an occurrence. */
  lemma {:induction false} ContainsIffOccurs(hay: string, needle: string)
    ensures Contains(hay, needle) <==> exists i :: OccursAt(hay, needle, i)
    decreases |hay|
  {
    if |needle| <= |hay| && hay[..|needle|] == needle {
      assert OccursAt(hay, needle, 0);
    } else if |hay| > 0 {
      assert Contains(hay, needle) == Contains(hay[1..], needle);
      ContainsIffOccurs(hay[1..], needle);
      if Contains(hay[1..], needle) {
        var i :| OccursAt(hay[1..], needle, i);
        assert hay[1..][i..i + |needle|] == hay[i + 1..i + 1 + |needle|];
        assert OccursAt(hay, needle, i + 1);
      }
      if exists i :: OccursAt(hay, needle, i) {
        var i :| OccursAt(hay, needle, i);
        assert i != 0;
        assert hay[1..][i - 1..i - 1 + |needle|] == hay[i..i + |needle|];
        assert OccursAt(hay[1..], needle, i - 1);
      }
    } else {
      assert !Contains(hay, needle);
      assert forall i :: !OccursAt(hay, needle, i);
    }
  }

  /** Every string includes the empty string. */
  lemma ContainsEmpty(hay: string)
    ensures Contains(hay, [])
  {
  }

  /** `localeCompare` ordering, taken as lexicographic order of character
      codes: `s` sorts strictly before `t`. */
  predicate StrLess(s: string, t: string)
    decreases |s|
  {
    |t| > 0 && (|s| == 0 || s[0] < t[0] || (s[0] == t[0] && StrLess(s[1..], t[1..])))
  }

  lemma {:induction false} StrLessIrreflexive(s: string)
    ensures !StrLess(s, s)
    decreases |s|
  {
    if |s| > 0 {
      StrLessIrreflexive(s[1..]);
    }
  }

  lemma {:induction false} StrLessTransitive(s: string, t: string, u: string)
    requires StrLess(s, t) && StrLess(t, u)
    ensures StrLess(s, u)
    decreases |s|
  {
    if |s| > 0 && s[0] == t[0] && t[0] == u[0] {
      StrLessTransitive(s[1..], t[1..], u[1..]);
    }
  }

  /** No two strings each sort before the other. */
  lemma StrLessAsymmetric(s: string, t: string)
    requires StrLess(s, t)
    ensures !StrLess(t, s)
  {
    if StrLess(t, s) {
      StrLessTransitive(s, t, s);
      StrLessIrreflexive(s);
    }
  }

  lemma {:induction false} StrLessTotal(s: string, t: string)
    ensures s == t || StrLess(s, t) || StrLess(t, s)
    decreases |s|
  {
    if |s| > 0 && |t| > 0 && s[0] == t[0] {
      StrLessTotal(s[1..], t[1..]);
      if s[1..] == t[1..] {
        assert s == [s[0]] + s[1..] && t == [t[0]] + t[1..];
      }
    }
  }

  function DigitChar(d: int): (c: char)
    requires 0 <= d < 10
    ensures '0' <= c <= '9'
  {
    ('0' as int + d) as char
  }

  predicate AllDigits(s: string) {
    forall i :: 0 <= i < |s| ==> '0' <= s[i] <= '9'
  }

  /** How `String(n)` writes a non-negative integer: decimal digits, no
      leading zeros. */
  function NatText(n: nat): (r: string)
    ensures |r| >= 1
    ensures AllDigits(r)
    ensures r[0] == '0' ==> n == 0
    decreases n
  {
    if n < 10 then [DigitChar(n)] else NatText(n / 10) + [DigitChar(n % 10)]
  }

  /** How `String(n)` writes any integer. */
  function IntText(n: int): (r: string)
    ensures |r| >= 1
    ensures n >= 0 ==> AllDigits(r)
    ensures n < 0 ==> r[0] == '-' && AllDigits(r[1..])
  {
    if n < 0 then "-" + NatText(-n) else NatText(n)
  }

  /** The value of a string of decimal digits, read most significant first. */
  function DigitsValue(s: string): nat
    requires AllDigits(s)
    decreases |s|
  {
    if s == [] then 0
    else DigitsValue(s[..|s| - 1]) * 10 + (s[|s| - 1] as int - '0' as int)
  }

  /** Reading the decimal text back gives the number that was written. */
  lemma {:induction false} NatTextRoundTrip(n: nat)
    ensures DigitsValue(NatText(n)) == n
    decreases n
  {
    if n >= 10 {
      NatTextRoundTrip(n / 10);
      var r := NatText(n);
      assert r[..|r| - 1] == NatText(n / 10);
    }
  }
}

=== FILE: utils.dfy ===
/** The helpers of the dashboard's utility library that carry logic: the
    growth percentage and the conversion of rows to comma-separated text.
    Number formatting through `Intl.NumberFormat` and the browser download
    are not modelled. */
module Utils {
  import opened Wrappers
  import opened Seqs

  /** `calculateGrowth`: the change from `previous` to `current` as a
      percentage of `previous`, and 0 when `previous` is 0. */
  function CalculateGrowth(current: real, previous: real): (g: real)
    ensures previous == 0.0 ==> g == 0.0
    ensures previous != 0.0 ==> previous + previous * g / 100.0 == current
    ensures previous > 0.0 ==> (g > 0.0 <==> current > previous)
    ensures previous > 0.0 ==> (g == 0.0 <==> current == previous)
  {
    if previous == 0.0 then 0.0 else ((current - previous) / previous) * 100.0
  }

  /** The value of one field of an exported object: a string, or a number
      already written out as JavaScript writes it. */
  datatype Field = Str(s: string) | Num(text: string)

  /** An object: its keys in the order `Object.keys` lists them, each with
      its value. The exported objects have distinct, non-numeric keys, for
      which that order is the order of insertion. */
  type Row = seq<(string, Field)>

  /** `Object.keys(row)`. */
  function Keys(row: Row): (keys: seq<string>)
    ensures |keys| == |row|
    ensures forall j :: 0 <= j < |row| ==> keys[j] == row[j].0
  {
    seq(|row|, j requires 0 <= j < |row| => row[j].0)
  }

  /** `row[key]`: the value stored under `key`, or `undefined`. */
  function Lookup(row: Row, key: string): (v: Option<Field>)
    ensures v.Some? ==> exists j :: 0 <= j < |row| && row[j] == (key, v.value)
    ensures v.None? ==> forall j :: 0 <= j < |row| ==> row[j].0 != key
    decreases |row|
  {
    if row == [] then None
    else if row[0].0 == key then Some(row[0].1)
    else Lookup(row[1..], key)
  }

  /** One cell of a data line. A string is wrapped in double quotes as it
      is, with any quote inside left undoubled; a number is written raw;
      `undefined` becomes the empty string, as `Array.prototype.join` does. */
  function Cell(v: Option<Field>): (c: string)
    ensures v.None? ==> c == []
    ensures v.Some? && v.value.Num? ==> c == v.value.text
    ensures v.Some? && v.value.Str? ==>
      && |c| == |v.value.s| + 2
      && c[0] == '"' && c[|c| - 1] == '"'
      && c[1..|c| - 1] == v.value.s
  {
    match v
    case None => ""
    case Some(Str(s)) => ['"'] + s + ['"']
    case Some(Num(t)) => t
  }

  /** The line for one row: its value under each header, comma-joined. */
  function DataLine(headers: seq<string>, row: Row): (line: string)
    ensures |headers| > 0 && (forall j :: 0 <= j < |headers| ==> ',' !in Cell(Lookup(row, headers[j]))) ==>
      && |Split(line, ',')| == |headers|
      && forall j :: 0 <= j < |headers| ==> Split(line, ',')[j] == Cell(Lookup(row, headers[j]))
  {
    var cells := seq(|headers|, j requires 0 <= j < |headers| => Cell(Lookup(row, headers[j])));
    if |headers| > 0 && FreeOf(cells, ',') then
      SplitJoin(cells, ',');
      Join(cells, ',')
    else
      Join(cells, ',')
  }

  /** `convertToCSV`: nothing for no rows; otherwise the first row's keys as
      the header line, then one line per row, joined by line breaks. */
  function ConvertToCsv(data: seq<Row>): (csv: string)
    ensures csv == [] <==> |data| == 0
  {
    if |data| == 0 then []
    else
      var headers := Keys(data[0]);
      Join([Join(headers, ',')] + seq(|data|, i requires 0 <= i < |data| => DataLine(headers, data[i])), '\n')
  }

  /** No key and no value anywhere in `data` contains character `c`. */
  predicate FreeOfChar(data: seq<Row>, c: char) {
    forall i, j :: 0 <= i < |data| && 0 <= j < |data[i]| ==>
      && c !in data[i][j].0
      && match data[i][j].1
         case Str(s) => c !in s
         case Num(t) => c !in t
  }

  lemma {:induction false} JoinFreeOf(parts: seq<string>, sep: char, c: char)
    requires FreeOf(parts, c) && c != sep
    ensures c !in Join(parts, sep)
    decreases |parts|
  {
    if |parts| > 1 {
      JoinFreeOf(parts[1..], sep, c);
    }
  }

  lemma CellFreeOf(data: seq<Row>, i: nat, key: string, c: char)
    requires FreeOfChar(data, c) && i < |data| && c != '"'
    ensures c !in Cell(Lookup(data[i], key))
  {
    var v := Lookup(data[i], key);
    if v.Some? {
      var j :| 0 <= j < |data[i]| && data[i][j] == (key, v.value);
    }
  }

  lemma DataLineFreeOf(data: seq<Row>, headers: seq<string>, i: nat, c: char)
    requires FreeOfChar(data, c) && i < |data| && c != '"' && c != ','
    ensures c !in DataLine(headers, data[i])
  {
    var cells := seq(|headers|, j requires 0 <= j < |headers| => Cell(Lookup(data[i], headers[j])));
    forall j | 0 <= j < |cells|
      ensures c !in cells[j]
    {
      CellFreeOf(data, i, headers[j], c);
    }
    JoinFreeOf(cells, ',', c);
  }

  /** Read back by line breaks, the text has one line more than there are
      rows: the first row's keys comma-joined, then each row's line in
      order — provided nothing in the data holds a line break. */
  lemma CsvLines(data: seq<Row>)
    requires |data| > 0
    requires FreeOfChar(data, '\n')
    ensures var lines := Split(ConvertToCsv(data), '\n');
      && |lines| == |data| + 1
      && lines[0] == Join(Keys(data[0]), ',')
      && forall i :: 0 <= i < |data| ==> lines[i + 1] == DataLine(Keys(data[0]), data[i])
  {
    var headers := Keys(data[0]);
    var lines := seq(|data|, i requires 0 <= i < |data| => DataLine(headers, data[i]));
    var parts := [Join(headers, ',')] + lines;
    assert ConvertToCsv(data) == Join(parts, '\n');
    assert FreeOf(headers, '\n') by {
      forall j | 0 <= j < |headers|
        ensures '\n' !in headers[j]
      {
        assert headers[j] == data[0][j].0;
      }
    }
    JoinFreeOf(headers, ',', '\n');
    forall k | 1 <= k < |parts|
      ensures '\n' !in parts[k]
    {
      assert parts[k] == lines[k - 1];
      DataLineFreeOf(data, headers, k - 1, '\n');
    }
    SplitJoin(parts, '\n');
  }

  /** Read back by commas, every data line has exactly one field per
      header, each the cell of that header's value — provided no key or
      value holds a comma or a line break. */
  lemma CsvFields(data: seq<Row>, i: nat)
    requires |data| > 0 && i < |data|
    requires |data[0]| > 0
    requires FreeOfChar(data, '\n') && FreeOfChar(data, ',')
    ensures var headers := Keys(data[0]);
      var lines := Split(ConvertToCsv(data), '\n');
      && |lines| == |data| + 1
      && Split(lines[0], ',') == headers
      && |Split(lines[i + 1], ',')| == |headers|
      && forall j :: 0 <= j < |headers| ==> Split(lines[i + 1], ',')[j] == Cell(Lookup(data[i], headers[j]))
  {
    CsvLines(data);
    var headers := Keys(data[0]);
    assert FreeOf(headers, ',') by {
      forall j | 0 <= j < |headers|
        ensures ',' !in headers[j]
      {
        assert headers[j] == data[0][j].0;
      }
    }
    SplitJoin(headers, ',');
    var cells := seq(|headers|, j requires 0 <= j < |headers| => Cell(Lookup(data[i], headers[j])));
    forall j | 0 <= j < |cells|
      ensures ',' !in cells[j]
    {
      CellFreeOf(data, i, headers[j], ',');
    }
    SplitJoin(cells, ',');
  }

  /** The header comes from the first row only: a key the first row lacks
      never becomes a column, every row's line has one field per column of
      the first row whatever keys it has, and a column the row lacks gets an
      empty field. */
  lemma CsvHeaderFromFirstRowOnly(data: seq<Row>, i: nat, key: string)
    requires |data| > 0 && i < |data| && |data[0]| > 0
    requires FreeOfChar(data, '\n') && FreeOfChar(data, ',')
    requires key !in Keys(data[0])
    ensures var lines := Split(ConvertToCsv(data), '\n');
      && |lines| == |data| + 1
      && key !in Split(lines[0], ',')
      && |Split(lines[i + 1], ',')| == |data[0]|
      && forall j :: 0 <= j < |data[0]| && Lookup(data[i], Keys(data[0])[j]).None? ==>
           Split(lines[i + 1], ',')[j] == ""
  {
    CsvFields(data, i);
  }

  /** A string is written between double quotes exactly as it is: a quote
      inside it is not doubled, so the field holds just two quotes more than
      the string, and a standard reader ends the field early. */
  lemma CsvQuotesNotDoubled(data: seq<Row>, i: nat, j: nat, s: string)
    requires |data| > 0 && i < |data| && j < |data[0]|
    requires FreeOfChar(data, '\n') && FreeOfChar(data, ',')
    requires Lookup(data[i], Keys(data[0])[j]) == Some(Str(s))
    ensures var lines := Split(ConvertToCsv(data), '\n');
      && |lines| == |data| + 1
      && j < |Split(lines[i + 1], ',')|
      && Split(lines[i + 1], ',')[j] == ['"'] + s + ['"']
      && multiset(Split(lines[i + 1], ',')[j])['"'] == multiset(s)['"'] + 2
  {
    CsvFields(data, i);
    assert multiset(['"'] + s + ['"']) == multiset(['"']) + multiset(s) + multiset(['"']);
  }

  /** The text of a one-row, one-column export of a string. */
  lemma OneColumnCsv(key: string, v: string)
    ensures ConvertToCsv([[(key, Str(v))]]) == Join([key, ['"'] + v + ['"']], '\n')
  {
    var data: seq<Row> := [[(key, Str(v))]];
    var cell := ['"'] + v + ['"'];
    assert Keys(data[0]) == [key];
    assert Cell(Lookup(data[0], key)) == cell;
    var cells := seq(1, j requires 0 <= j < 1 => Cell(Lookup(data[0], [key][j])));
    assert cells == [cell];
    assert DataLine([key], data[0]) == cell;
    var lines := seq(|data|, i requires 0 <= i < |data| => DataLine([key], data[i]));
    assert lines == [cell];
    assert Join([key], ',') == key;
    assert ConvertToCsv(data) == Join([key, cell], '\n');
  }

  /** The string-level half of `CsvCommaAddsField`: a header line and a data line whose
      one quoted cell holds a comma split into one and two fields. */
  lemma QuotedCommaLineSplits(key: string, a: string, b: string)
    requires ',' !in key && ',' !in a && ',' !in b
    requires '\n' !in key && '\n' !in a && '\n' !in b
    ensures var lines := Split(Join([key, ['"'] + (a + [','] + b) + ['"']], '\n'), '\n');
      && |lines| == 2
      && Split(lines[0], ',') == [key]
      && Split(lines[1], ',') == [['"'] + a, b + ['"']]
  {
    var cell := ['"'] + (a + [','] + b) + ['"'];
    assert '\n' !in cell;
    SplitJoin([key, cell], '\n');
    SplitFree(key, ',');
    assert cell == (['"'] + a) + [','] + (b + ['"']);
    SplitAtSeparator(['"'] + a, ',', b + ['"']);
    SplitFree(b + ['"'], ',');
  }

  /** A comma inside a string is not protected by the quotes for a reader
      that splits on commas: a one-column export whose value holds one comma
      reads back as two fields under one header. */
  lemma CsvCommaAddsField(key: string, a: string, b: string)
    requires ',' !in key && ',' !in a && ',' !in b
    requires '\n' !in key && '\n' !in a && '\n' !in b
    ensures var lines := Split(ConvertToCsv([[(key, Str(a + [','] + b))]]), '\n');
      && |lines| == 2
      && Split(lines[0], ',') == [key]
      && Split(lines[1], ',') == [['"'] + a, b + ['"']]
  {
    OneColumnCsv(key, a + [','] + b);
    QuotedCommaLineSplits(key, a, b);
  }
}

=== FILE: wrappers.dfy ===
/** The optional value used wherever the dashboard code has a value that may be
    absent: an empty filter box, a `find` that matched nothing, a key missing
    from an object. */
module Wrappers {

  datatype Option<+T> = None | Some(value: T)
}
